=== FILE: README.md ===
# Dashboard FITec: points toward a goal, in Dafny

This project models the computational core of the FITec dashboards. They are two Streamlit pages that track field points toward a goal.

- **`dash.py`: the main dashboard.**
  - Loads a `;`-separated CSV and normalises its column names, for example `Número de Pontos` becomes `numero_de_pontos`.
  - Parses the `dd/mm/yyyy` dates and drops rows whose date does not parse.
  - Filters the rows by the names selected in the sidebar.
  - Stops at the first exception: a missing date column, two differently written headers for it, or a negative total whose bar fraction `st.progress` refuses.
  - Shows:
    - progress against a goal of 101 457 points;
    - count, mean, maximum and minimum of the points;
    - a 7-row rolling mean;
    - an estimated completion date: the remaining points over the mean of the last 14 rows, counted in Monday-to-Friday business days from the last date;
    - a reached / nearly-reached alert;
    - a growth scenario.
- **`desempenho.py`: the performance page.**
  - Reads a spreadsheet.
  - Stops on an empty sheet or on a missing `número de pontos` or `data` column.
  - Coerces the points to numbers, and counts and drops the cells that do not convert.
  - Reports the total against 100 000 points, the truncated progress value and the per-day sums.

Rows are immutable datatypes in sequences. Points are exact `real`s, not IEEE floats. A pandas NaN or NaT is `None` of `Option`.

Dates are numpy day numbers, counted from 1970-01-01, a Thursday. So the weekday of day `n` is `(n + 3) % 7`, with Monday = 0. The goal is a parameter, and the two constants are `Goal.DashGoal` and `Goal.SheetGoal`.

Modules, one per file:

| file | module | what |
|---|---|---|
| `seqs.dfy` | `Seqs` | Option; order-preserving filter and filter-and-convert; sums, means, extremes |
| `column_names.dfy` | `ColumnNames` | accent removal and column-name normalisation over an abstract character table, plus a concrete Portuguese table |
| `calendar.dfy` | `Calendar` | `dd/mm/yyyy` parsing and formatting; Gregorian validity; day numbers |
| `business_days.dfy` | `BusinessDays` | weekdays; roll-forward; `np.busday_offset` |
| `goal.dfy` | `Goal` | remaining points; percent; progress bar; alert band; truncation |
| `dash_data.dfy` | `DashData` | loading and date cleaning; the name filter |
| `dash_stats.dfy` | `DashStats` | basic statistics; rolling mean; growth scenario |
| `dash_estimate.dfy` | `DashEstimate` | sort by date; 14-row rate; goal-date estimate |
| `dashboard.dfy` | `Dashboard` | the main dashboard's flow |
| `daily.dfy` | `Daily` | group-by-date sums |
| `desempenho.dfy` | `Desempenho` | the performance page's flow |

## Model

| member | source | states |
|---|---|---|
| ColumnNames.RemoveAccents | dash.py:16-19 | no character of the result is a combining mark; with a coherent table every character is fully decomposed |
| ColumnNames.RemoveAccentsKeepsTheRest | dash.py:16-19 | only combining marks are dropped: every other character of the decomposition is kept as often as it occurs, and in order |
| ColumnNames.NormalizedHasNoMarks | dash.py:21-24 | a normalised column name holds no combining mark when lowercasing never yields one |
| ColumnNames.NormalizeName | dash.py:21-24 | a normalised column name contains no space |
| ColumnNames.TrimCutsOnlySpace | dash.py:23 | `strip()` returns a contiguous slice of its input, the characters outside it being whitespace |
| ColumnNames.NormalizeIdempotent | dash.py:21-24 | normalising an already normalised name changes nothing |
| ColumnNames.NormalizeFixesStable | dash.py:21-24 | a name made of characters no step changes, with no whitespace at either end, normalises to itself |
| ColumnNames.NormalizeColumns | dash.py:21-24 | every column is normalised, and the number of columns is kept |
| ColumnNames.PortugueseIsCoherent | dash.py:16-24 | the concrete Portuguese table meets the conditions under which normalisation is idempotent |
| ColumnNames.PointsHeaderKey | dash.py:23 | the header `Número de Pontos` normalises to `numero_de_pontos`, the key used at line 74 |
| ColumnNames.HeadersResolveAlike | dash.py:23 | the accented header and the key `numero_de_pontos` normalise to the same name |
| Calendar.ParseDate | dash.py:66 | only text naming a valid calendar date (leap years included) is parsed to a date |
| Calendar.ParseFormat | dash.py:66 | every valid date printed as `dd/mm/yyyy` parses back to itself |
| Calendar.FormatParse | dash.py:66 | text that parses is exactly the `dd/mm/yyyy` printing of its date |
| Calendar.LeapDayExamples | dash.py:66 | 29/02 parses in 2024 and 2000 but not in 2023 or 1900 |
| Calendar.RejectedDateExamples | dash.py:66 | 31/02, 31/04, day 00, month 13 and ISO layout are rejected |
| Calendar.YearLength | dash.py:152 | a year spans 366 day numbers when leap and 365 otherwise |
| Calendar.DayNumberNext | dash.py:152 | consecutive calendar dates have consecutive day numbers |
| Calendar.DayNumberAnchors | dash.py:152 | 1970-01-01 is day 0, matching numpy's epoch |
| BusinessDays.RollForward | dash.py:152 | roll='forward' gives the first business day on or after the date, at most two days later |
| BusinessDays.BusdayOffset | dash.py:152 | the offset date is a business day no earlier than the start |
| BusinessDays.OffsetCountsBusinessDays | dash.py:152 | exactly k business days lie between the rolled start and the k-step offset |
| BusinessDays.OffsetStrictlyMonotone | dash.py:152 | more business-day steps land strictly later |
| BusinessDays.ClosedFormAgrees | dash.py:152 | numpy's week-arithmetic computation equals stepping one business day at a time |
| BusinessDays.NewYear2024IsMonday | dash.py:152 | 1 January 2024 is day 19723 and a Monday |
| BusinessDays.BusinessDayExamples | dash.py:152 | Friday steps to Monday, Saturday rolls to Monday, ten steps from a Monday reach the Monday two weeks on |
| Goal.Remaining | dash.py:121-123 | remaining points are never negative, are zero exactly when the total reaches the goal, and total plus remaining is the larger of the two |
| Goal.Percent | dash.py:124 | with a positive goal the percentage is total/goal·100, and it is at least 100 exactly when the goal is met; otherwise it is 0 |
| Goal.BarFraction | dash.py:132 | the bar never exceeds 1, is full exactly from 100 per cent, and is percent/100 below that |
| Goal.FullBarMeansGoalMet | dash.py:123-134 | the bar is full exactly when no points remain |
| Goal.MetaProgressOf | dash.py:117-135 | the goal panel shows the sum; the remainder max(goal − total, 0); the percentage total/goal·100 (0 for a non-positive goal); the bar as that percentage over a hundred capped at 1; and the success message exactly when the total reaches the goal |
| Goal.CheckGoalStatus | dash.py:164-169 | Reached iff total ≥ goal; Near iff 0.9·goal ≤ total < goal; otherwise silent |
| Goal.StatusMonotone | dash.py:164-169 | a larger total never moves the alert from Reached or from Near back toward silence |
| Goal.StatusAgreesWithPanel | dash.py:123-169 | the alert says Reached exactly when the goal panel shows nothing remaining |
| Goal.DashBarAccepted | dash.py:132 | `st.progress` accepts the main bar's fraction exactly when the total is not negative: the cap bounds it above but nothing bounds it below |
| Goal.Trunc | dash.py:151-152 | `int()` truncates toward zero: within one of the value and no larger in magnitude |
| Goal.SheetBarValue | desempenho.py:45-66 | the performance page's bar value is the whole part of total/1000; it is not capped, so 100 000 points or more give 100 or more |
| Goal.SheetBarAccepted | desempenho.py:66 | `st.progress` accepts the bar value exactly when the total lies strictly between -1 000 and 101 000 points |
| Goal.BarExamples | desempenho.py:48-66 | 150 000 points give the value 150, which `st.progress` rejects, while the main bar at that total is full; 91 312 is Near and 91 311 silent for 101 457 |
| DashData.CleanRow | dash.py:66 | a record converts exactly when its date is a valid calendar date within pandas' timestamp range |
| DashData.CleanDates | dash.py:66-67 | the cleaned rows are exactly the records whose date is a valid date in the timestamp range, converted, in their original order |
| DashData.CleanDatesKeepsValidRows | dash.py:66-67 | cleaning keeps exactly the records with a valid date, in their original order, each converted |
| DashData.CleanDatesDropsInvalid | dash.py:66-67 | kept plus dropped records is all records |
| DashData.TimestampRangeBounds | dash.py:66 | the timestamp range is 22 September 1677 to 11 April 2262 |
| DashData.OutOfRangeDropped | dash.py:66-67 | 01/01/1500 is a calendar date but is dropped as out of range |
| DashData.CleanDatesExample | dash.py:66-67 | of 31/02/2024 and 29/02/2024 only the leap day is kept |
| DashData.LoadAndClean | dash.py:62-68 | over the header as `read_csv` returns it: a KeyError exactly when no normalised header is `data`; the ValueError of `to_datetime` exactly when two or more are; otherwise the rows are the records with a valid date, converted, in file order |
| DashData.FilterData | dash.py:80-82 | every kept row's name is selected, and each row with a selected name is kept exactly as many times as it occurs, duplicates included |
| DashData.FilterDataKeepsDuplicates | dash.py:80-82 | two identical records of a selected name are both kept |
| DashData.FilterDataIsSubsequence | dash.py:80-82 | the filtered rows are an order-preserving subsequence of the input |
| DashData.FilterDataIdempotent | dash.py:80-82 | filtering twice by the same names equals filtering once |
| DashData.FilterDataIntersect | dash.py:80-82 | filtering by A and then by B equals filtering by A ∩ B |
| DashData.UniqueNames | dash.py:263 | the unique names are exactly the names occurring in the rows |
| DashData.DefaultSelectionKeepsAll | dash.py:263-267 | with the default selection (all unique names) the filter keeps every row |
| DashStats.BasicStats | dash.py:71-78 | count is the number of rows; mean, max and min are missing exactly for no rows; max and min are attained and bound every value; the mean lies between them |
| DashStats.Rolling | dash.py:93 | one smoothed value per row |
| DashStats.RollingWithinWindow | dash.py:93 | each smoothed value lies between the least and greatest points of its window of at most 7 rows; the first is the first point |
| DashStats.RollingConstant | dash.py:93 | equal points are left unchanged by the smoothing |
| DashStats.RollingMeans | dash.py:93 | the one-pass running-sum computation equals the windowed-mean definition |
| DashStats.Scenario | dash.py:171-175 | the scenario is missing exactly for no rows and equals the mean at zero growth |
| DashStats.ScenarioMonotone | dash.py:171-175 | for a non-negative mean, a larger growth rate never projects fewer points, and a non-negative rate never projects below the mean |
| DashEstimate.SortByDate | dash.py:146 | the result is a permutation of the rows in ascending date order |
| DashEstimate.Recent | dash.py:146 | the tail has min(14, n) rows, counted in rows, not days |
| DashEstimate.RecentAreLatest | dash.py:146 | the recent and the older rows make up all rows, and no older row is dated after a recent one |
| DashEstimate.RecentRate | dash.py:147 | the rate is missing exactly when there are no rows |
| DashEstimate.RateOfFewRows | dash.py:146-147 | with at most 14 rows the rate is the mean of all points |
| DashEstimate.LastDate | dash.py:148 | the last date is missing for no rows, otherwise it is a row's date and no row is later |
| DashEstimate.ProjectDate | dash.py:151-152 | the projected date is a business day no earlier than the last date |
| DashEstimate.ProjectionCountsSteps | dash.py:151-152 | the projection lies exactly int(remaining/rate) business days after the rolled last date |
| DashEstimate.FasterRateIsSooner | dash.py:150-152 | a higher rate or fewer remaining points never projects a later date |
| DashEstimate.EstimateGoal | dash.py:137-162 | a date is projected iff points remain and the rate is positive; else "reached" iff the total meets the goal, then "no progress" iff the rate is 0, else "too low"; a projected date is a business day after every row |
| DashEstimate.EmptySelectionRateTooLow | dash.py:150-162 | with no rows the goal is unmet and the NaN rate leads to the "too low" message |
| DashEstimate.EstimateExample | dash.py:142-155 | ten days of 100 points from 1 Jan 2024 with goal 3000 project Wednesday 7 Feb 2024 |
| Dashboard.ShowDashboard | dash.py:256-294 | the KeyError screen exactly when no header normalises to `data`, the assembly error exactly when two or more do; otherwise the goal panel, and all panels when drawn, are computed from exactly the selected rows among the records with a valid date; the panels are drawn only for a non-negative total |
| Dashboard.Present | dash.py:261-294 | each load error stays an error; an empty load gives the no-data screen; a negative total of the selected rows stops at the progress bar, whose fraction `st.progress` rejects, after the goal panel's figures for those rows; otherwise every panel (goal figures, statistics, smoothed series, estimate, alert, scenario) is the one computed from exactly the filtered rows, with an accepted bar |
| Dashboard.NegativeTotalStops | dash.py:117-132 | a single selected row with negative points stops the page at the progress bar |
| Dashboard.GoalMessagesAgree | dash.py:134-169 | whenever the panels are drawn, the panel's success message, the estimate's "reached" and the alert's Reached coincide |
| Dashboard.DefaultSelectionShowsAll | dash.py:263-267 | with the default selection the panels cover every loaded row |
| Dashboard.EmptySelectionTooLow | dash.py:264-284 | an empty selection gives no mean and a "too low" estimate |
| Daily.AddPoint | desempenho.py:70 | adding a point keeps the series strictly ascending and adds its date to the dates |
| Daily.AddPointLookup | desempenho.py:70 | adding p on date d raises d's entry by p and leaves every other date unchanged |
| Daily.AddPointTotal | desempenho.py:70 | adding p raises the series total by p |
| Daily.DailySums | desempenho.py:70 | one entry per date present, strictly ascending, each the sum over exactly that date's rows, totalling the dated points |
| Daily.EntryIsDaySum | desempenho.py:70 | each entry's points are the sum over the rows of its date |
| Daily.DailyKeepsTotal | desempenho.py:46-70 | when every row is dated the daily entries add up to the total points |
| Daily.DatedPlusUndated | desempenho.py:46-70 | dated plus undated points make up the total |
| Daily.OneDayExample | desempenho.py:70 | 10, 20 and 5 points on one day give a single entry of 35 |
| Desempenho.ToNumeric | desempenho.py:37 | numbers stay numbers and blanks become missing |
| Desempenho.ShowDesempenho | desempenho.py:19-70 | stops with no data iff the sheet is empty, then on a missing column iff one of the two is absent; otherwise nulls plus kept rows equal all rows, the total is the kept points' sum, the remainder is max(100 000 − total, 0), the bar is the truncated percentage; the page stops at the bar iff its value is outside 0..100 (totals outside -1 000..101 000), and only otherwise shows the daily series: ascending over exactly the dates present, each entry the sum of that date's kept points |
| Desempenho.CoercionKeepsNumericRows | desempenho.py:37-42 | once past both checks, kept rows are exactly the convertible ones, in order, each with its date; no convertible row is lost |
| Desempenho.DailyAccountsForTotal | desempenho.py:46-70 | the daily series plus the undated points equal the reported total |
| Desempenho.ReportExample | desempenho.py:37-70 | a sheet with 10, an unreadable cell, a blank and 20 reports 2 nulls, 30 points, 99 970 missing, and one daily entry of 30 |
| Desempenho.OverGoalStops | desempenho.py:45-66 | a sheet of 150 000 points computes the figures but stops at the bar value 150, before the daily series |

## Left out

- Rendering and I/O are outside the model: Streamlit widgets, layout, CSS, charts, download buttons and session state; `read_csv` and `read_excel` from a URL and their exception fallback; `requests.get`; and `@st.cache_data`.
  - The sidebar selection and the growth slider are parameters.
  - Text-to-number parsing in the spreadsheet is a parameter `parse`.
- Login and password hashing (dash.py:26-43) are left out: placeholder credentials and SHA-256, a foreign primitive.
- The standard deviation (dash.py:75) is left out: it needs a square root of floats.
- `predict_points` (dash.py:186-198) is left out: it is a scikit-learn linear regression over floats.
- `fetch_external_data` (dash.py:177-184) is left out: network I/O.
- Floating point: points, means and percentages are exact reals, so rounding and float summation order do not appear.
- Unicode: NFKD decomposition and `combining()` are an abstract character table.
  - The concrete table covers only the Portuguese accented letters and the marks U+0300-U+036F other than U+034F, whose combining class is 0.
  - `lower()` is one character to one character: ASCII in the concrete table. Multi-character lowercasing (e.g. `İ`) is not modelled.
  - `strip()` uses a whitespace predicate, ASCII whitespace in the concrete table.
- Calendar.ParseDate: strptime's leniency is not modelled. Its `%d` also accepts a one-digit or space-padded day, and its `%m` a one-digit month; `%Y` takes exactly four digits. Only the zero-padded `dd/mm/yyyy` layout is accepted here.
- Calendar.FormatDate: always pads the year to four digits. `strftime('%Y')` on some platforms does not pad years below 1000, but those years are outside pandas' timestamp range anyway.
- DashData.LoadAndClean: a missing date column is modelled as the KeyError that `df['data']` raises in the code. It is not an empty result.
  - `header` is the column list after `read_csv` has renamed repeated names (`x`, `x.1`, `x.2`, ...); that renaming is not modelled. So a header written `data` twice does not reach the error: the repeat becomes `data.1`.
  - Two differently written headers that both normalise to `data` (e.g. `Data` and `data`) make `df['data']` a table. `to_datetime` then raises ValueError; that is the `DuplicateKey` outcome.
  - The check at dash.py:270 and its error message (dash.py:329-330) can therefore never fire after a successful load, and are not modelled.
  - The record fields under the normalised `nome` and `numero_de_pontos` columns are given as typed values. A missing or duplicated `nome` or points column, and points that `read_csv` reads as text, are not modelled.
- DashData.RawRow: a record's points are a number. A blank points cell, which `read_csv` reads as NaN and which pandas then skips in the sum, mean, extremes, rolling mean and the 14-row rate while `len` still counts the row, is not modelled.
- DashEstimate.EstimateGoal: the projected day number is unbounded. Converting it with `pd.to_datetime` and `strftime` (dash.py:153-155) fails for dates the timestamp type cannot hold (past 11 April 2262 with nanosecond timestamps), and that failure is not modelled.
- DashEstimate.SortByDate: a stable insertion sort. pandas' default sort is not stable, so when rows share a date at the 14-row boundary, pandas may pick different rows.
  - The model fixes one choice.
  - What every choice shares is stated in RecentAreLatest.
- Desempenho.ShowDesempenho: the `data` column's values are given as day numbers or missing. A `data` column that is not of datetime type makes `.dt` raise, and that is not modelled.
  - The warning text's null count is the `nulls` field. The message itself is not modelled.
- The spreadsheet's other columns and the order of the daily series' output columns are not modelled.
- `streamlit_app.py` and `projecao.py` are left out: navigation and a hard-coded plot, with no logic.

=== FILE: business_days.dfy ===
/** numpy's business-day calendar with the default week mask (Monday to
    Friday, no holidays), over day numbers counted from 1970-01-01, which was
    a Thursday. */
module BusinessDays {
  import opened Calendar

  /** Day of the week of day number `n`, Monday = 0 through Sunday = 6. */
  function Weekday(n: int): (w: int)
    ensures 0 <= w < 7
  {
    (n + 3) % 7
  }

  predicate IsBusinessDay(n: int)
  {
    Weekday(n) < 5
  }

  /** roll='forward': a Saturday or Sunday moves to the following Monday,
      a business day stays put. */
  function RollForward(n: int): (r: int)
    ensures IsBusinessDay(r)
    ensures n <= r <= n + 2
    ensures forall m :: n <= m < r ==> !IsBusinessDay(m)
  {
    var w := Weekday(n);
    if w == 5 then
      assert Weekday(n + 1) == 6 && Weekday(n + 2) == 0;
      n + 2
    else if w == 6 then
      assert Weekday(n + 1) == 0;
      n + 1
    else n
  }

  /** The first business day strictly after `n`. */
  function NextBusinessDay(n: int): (r: int)
    ensures IsBusinessDay(r) && n < r
    ensures forall m :: n < m < r ==> !IsBusinessDay(m)
  {
    RollForward(n + 1)
  }

  /** np.busday_offset(start, k, roll='forward') for k >= 0: roll onto a
      business day, then step over k further business days, one at a time. */
  function BusdayOffset(start: int, k: nat): (r: int)
    ensures IsBusinessDay(r)
    ensures start <= r
  {
    if k == 0 then RollForward(start) else NextBusinessDay(BusdayOffset(start, k - 1))
  }

  /** Number of business days among the day numbers a .. b-1. */
  function CountBusinessDays(a: int, b: int): nat
    decreases b - a
  {
    if b <= a then 0 else CountBusinessDays(a, b - 1) + (if IsBusinessDay(b - 1) then 1 else 0)
  }

  /** Days with no business day among them add nothing to the count. */
  lemma {:induction false} CountOverIdleDays(a: int, b: int, c: int)
    requires a <= b <= c
    requires forall m :: b <= m < c ==> !IsBusinessDay(m)
    ensures CountBusinessDays(a, c) == CountBusinessDays(a, b)
    decreases c - b
  {
    if b < c {
      CountOverIdleDays(a, b, c - 1);
    }
  }

  /** Exactly k business days lie between the rolled start (inclusive) and
      the result (exclusive): the offset counts business days. */
  lemma {:induction false} OffsetCountsBusinessDays(start: int, k: nat)
    ensures RollForward(start) <= BusdayOffset(start, k)
    ensures CountBusinessDays(RollForward(start), BusdayOffset(start, k)) == k
  {
    var a := RollForward(start);
    if k > 0 {
      OffsetCountsBusinessDays(start, k - 1);
      var p := BusdayOffset(start, k - 1);
      var r := BusdayOffset(start, k);
      assert CountBusinessDays(a, p + 1) == k;
      CountOverIdleDays(a, p + 1, r);
    }
  }

  /** More steps land strictly later. */
  lemma {:induction false} OffsetStrictlyMonotone(start: int, j: nat, k: nat)
    requires j < k
    ensures BusdayOffset(start, j) < BusdayOffset(start, k)
    decreases k
  {
    if j < k - 1 {
      OffsetStrictlyMonotone(start, j, k - 1);
    }
  }

  /** numpy's own computation: after rolling, whole weeks of five business
      days are seven calendar days each, and the leftover steps skip one
      weekend when they run past Friday. */
  function ClosedFormOffset(start: int, k: nat): int
  {
    ClosedFrom(RollForward(start), k)
  }

  /** The closed form counted from the business day `d`. */
  function ClosedFrom(d: int, k: int): int
  {
    var rem := k % 5;
    d + 7 * (k / 5) + rem + (if Weekday(d) + rem >= 5 then 2 else 0)
  }

  lemma WeekdayShift(n: int, j: int)
    ensures Weekday(n + j) == (Weekday(n) + j) % 7
  {
  }

  /** From a business day, the next one is three days on after a Friday and
      one day on otherwise. */
  lemma NextBusinessDayStep(p: int)
    requires IsBusinessDay(p)
    ensures NextBusinessDay(p) == if Weekday(p) == 4 then p + 3 else p + 1
  {
    WeekdayShift(p, 1);
  }

  /** Where the closed form lands after `rem` leftover steps from a business
      day `b`, and on which weekday. */
  lemma LeftoverSteps(b: int, rem: int)
    requires IsBusinessDay(b) && 0 <= rem < 5
    ensures var e := rem + (if Weekday(b) + rem >= 5 then 2 else 0);
      Weekday(b + e) == (Weekday(b) + rem) % 5
  {
    var e := rem + (if Weekday(b) + rem >= 5 then 2 else 0);
    WeekdayShift(b, e);
  }

  /** The closed form for `5 * q + rem` steps: `q` whole weeks, then the
      leftover steps. */
  lemma ClosedFromWeeks(d: int, k: int, q: int, rem: int)
    requires 0 <= rem < 5 && k == 5 * q + rem
    ensures ClosedFrom(d, k) == d + 7 * q + rem + (if Weekday(d) + rem >= 5 then 2 else 0)
  {
    assert k / 5 == q && k % 5 == rem;
  }

  /** One business day on from where `rem` leftover steps land: one more
      leftover step, or, after the fifth, a whole week from `b`. */
  lemma LeftoverNext(b: int, rem: int)
    requires IsBusinessDay(b) && 0 <= rem < 5
    ensures var p := b + rem + (if Weekday(b) + rem >= 5 then 2 else 0);
      NextBusinessDay(p) == if rem == 4 then b + 7 else b + rem + 1 + (if Weekday(b) + rem + 1 >= 5 then 2 else 0)
  {
    var p := b + rem + (if Weekday(b) + rem >= 5 then 2 else 0);
    LeftoverSteps(b, rem);
    NextBusinessDayStep(p);
  }

  /** Whole weeks keep the day of the week. */
  lemma WeeksKeepWeekday(d: int, q: int)
    ensures Weekday(d + 7 * q) == Weekday(d)
  {
    WeekdayShift(d, 7 * q);
  }

  /** One more business day from where the closed form lands for k - 1
      steps is where it lands for k steps. */
  lemma ClosedFormStep(d: int, k: int)
    requires IsBusinessDay(d) && k > 0
    ensures NextBusinessDay(ClosedFrom(d, k - 1)) == ClosedFrom(d, k)
  {
    ClosedFormWeekStep(d, k, (k - 1) / 5, (k - 1) % 5);
  }

  /** ClosedFormStep with `k - 1` split into `q` weeks and `rem` leftover steps. */
  lemma ClosedFormWeekStep(d: int, k: int, q: int, rem: int)
    requires IsBusinessDay(d) && 0 <= rem < 5 && k - 1 == 5 * q + rem
    ensures NextBusinessDay(ClosedFrom(d, k - 1)) == ClosedFrom(d, k)
  {
    var base := d + 7 * q;
    ClosedFromWeeks(d, k - 1, q, rem);
    WeeksKeepWeekday(d, q);
    LeftoverNext(base, rem);
    if rem == 4 {
      ClosedFromWeeks(d, k, q + 1, 0);
    } else {
      ClosedFromWeeks(d, k, q, rem + 1);
    }
  }

  /** The closed form agrees with stepping one business day at a time. */
  lemma {:induction false} ClosedFormAgrees(start: int, k: nat)
    ensures ClosedFormOffset(start, k) == BusdayOffset(start, k)
  {
    if k > 0 {
      ClosedFormAgrees(start, k - 1);
      ClosedFormStep(RollForward(start), k);
      assert BusdayOffset(start, k) == NextBusinessDay(BusdayOffset(start, k - 1));
    }
  }

  /** 1 January 2024 (day 19723) was a Monday. */
  lemma NewYear2024IsMonday()
    ensures DayNumber(Date(2024, 1, 1)) == 19723
    ensures Weekday(19723) == 0
  {
    DayNumberAnchors();
  }

  /** Friday 5 January 2024 steps to Monday the 8th, Saturday the 6th rolls
      forward to Monday the 8th, and ten steps from Monday the 1st reach
      Monday the 15th. */
  lemma BusinessDayExamples()
    ensures BusdayOffset(19727, 1) == 19730
    ensures BusdayOffset(19728, 0) == 19730
    ensures BusdayOffset(19723, 10) == 19737
  {
    ClosedFormAgrees(19727, 1);
    ClosedFormAgrees(19728, 0);
    ClosedFormAgrees(19723, 10);
  }
}

=== FILE: calendar.dfy ===
/** Proleptic Gregorian dates as the loader reads them (format "%d/%m/%Y",
    dash.py:66) and as day numbers counted from 1970-01-01, the epoch of
    numpy's day-resolution dates. */
module Calendar {
  import opened Seqs

  datatype Date = Date(year: int, month: int, day: int)

  predicate IsLeapYear(y: int)
  {
    y % 4 == 0 && (y % 100 != 0 || y % 400 == 0)
  }

  function DaysInMonth(y: int, m: int): int
    requires 1 <= m <= 12
  {
    if m == 2 then (if IsLeapYear(y) then 29 else 28)
    else if m == 4 || m == 6 || m == 9 || m == 11 then 30
    else 31
  }

  /** A calendar date Python's datetime can hold (years 1 through 9999). */
  predicate IsValidDate(d: Date)
  {
    1 <= d.year <= 9999 && 1 <= d.month <= 12 && 1 <= d.day <= DaysInMonth(d.year, d.month)
  }

  predicate IsDigit(c: char)
  {
    '0' <= c <= '9'
  }

  predicate AllDigits(s: string)
  {
    forall i :: 0 <= i < |s| ==> IsDigit(s[i])
  }

  function DigitChar(n: nat): (c: char)
    requires n < 10
    ensures IsDigit(c)
  {
    ('0' as int + n) as char
  }

  /** Decimal value of a digit string, most significant digit first. */
  function DigitsValue(s: string): nat
    requires AllDigits(s)
  {
    if |s| == 0 then 0 else DigitsValue(s[..|s| - 1]) * 10 + (s[|s| - 1] as int - '0' as int)
  }

  /** The `width` lowest decimal digits of `n`, zero-padded on the left. */
  function Padded(n: nat, width: nat): (r: string)
    ensures |r| == width && AllDigits(r)
  {
    if width == 0 then [] else Padded(n / 10, width - 1) + [DigitChar(n % 10)]
  }

  function Pow10(k: nat): nat
  {
    if k == 0 then 1 else 10 * Pow10(k - 1)
  }

  /** Reading back a zero-padded number gives the number. */
  lemma {:induction false} PaddedValue(n: nat, width: nat)
    requires n < Pow10(width)
    ensures DigitsValue(Padded(n, width)) == n
  {
    if width > 0 {
      PaddedValue(n / 10, width - 1);
      var r := Padded(n, width);
      assert r[..|r| - 1] == Padded(n / 10, width - 1);
    }
  }

  /** Writing out the value of a digit string of the same width gives the string. */
  lemma {:induction false} ValuePadded(s: string)
    requires AllDigits(s)
    ensures Padded(DigitsValue(s), |s|) == s
  {
    if |s| > 0 {
      var init := s[..|s| - 1];
      ValuePadded(init);
      var v := DigitsValue(s);
      var d := s[|s| - 1] as int - '0' as int;
      assert v / 10 == DigitsValue(init) && v % 10 == d;
      assert s == init + [s[|s| - 1]];
    }
  }

  function Digit(c: char): int
  {
    c as int - '0' as int
  }

  lemma TwoDigitsValue(s: string)
    requires |s| == 2 && AllDigits(s)
    ensures DigitsValue(s) == 10 * Digit(s[0]) + Digit(s[1])
  {
    assert DigitsValue(s[..1]) == Digit(s[0]) by {
      assert s[..1][..0] == [];
    }
  }

  lemma FourDigitsValue(s: string)
    requires |s| == 4 && AllDigits(s)
    ensures DigitsValue(s) == 1000 * Digit(s[0]) + 100 * Digit(s[1]) + 10 * Digit(s[2]) + Digit(s[3])
  {
    TwoDigitsValue(s[..2]);
    assert s[..3][..2] == s[..2];
    assert DigitsValue(s[..3]) == 10 * DigitsValue(s[..2]) + Digit(s[2]);
  }

  /** Two digits, '/', two digits, '/', four digits. */
  predicate HasDateShape(s: string)
  {
    |s| == 10 && s[2] == '/' && s[5] == '/'
    && IsDigit(s[0]) && IsDigit(s[1]) && IsDigit(s[3]) && IsDigit(s[4])
    && IsDigit(s[6]) && IsDigit(s[7]) && IsDigit(s[8]) && IsDigit(s[9])
  }

  /** The day, month and year fields of a date-shaped text. */
  function Fields(s: string): Date
    requires HasDateShape(s)
  {
    Date(1000 * Digit(s[6]) + 100 * Digit(s[7]) + 10 * Digit(s[8]) + Digit(s[9]),
         10 * Digit(s[3]) + Digit(s[4]),
         10 * Digit(s[0]) + Digit(s[1]))
  }

  /** pd.to_datetime(text, format='%d/%m/%Y'): the date the text names, or
      None when the text is not of that shape or names no calendar date. */
  function ParseDate(s: string): (r: Option<Date>)
    ensures r.Some? ==> IsValidDate(r.value)
    ensures r.Some? ==> HasDateShape(s)
  {
    if HasDateShape(s) && IsValidDate(Fields(s)) then Some(Fields(s)) else None
  }

  /** strftime('%d/%m/%Y'). */
  function FormatDate(d: Date): (s: string)
    requires IsValidDate(d)
    ensures HasDateShape(s)
  {
    Padded(d.day, 2) + "/" + Padded(d.month, 2) + "/" + Padded(d.year, 4)
  }

  /** The fields of a date-shaped text are the decimal values of its digit groups. */
  lemma FieldsValues(s: string)
    requires HasDateShape(s)
    ensures AllDigits(s[..2]) && AllDigits(s[3..5]) && AllDigits(s[6..])
    ensures Fields(s) == Date(DigitsValue(s[6..]), DigitsValue(s[3..5]), DigitsValue(s[..2]))
  {
    FourDigitsValue(s[6..]);
    TwoDigitsValue(s[3..5]);
    TwoDigitsValue(s[..2]);
  }

  /** Every valid date survives formatting and parsing back. */
  lemma ParseFormat(d: Date)
    requires IsValidDate(d)
    ensures ParseDate(FormatDate(d)) == Some(d)
  {
    var s := FormatDate(d);
    assert s[..2] == Padded(d.day, 2);
    assert s[3..5] == Padded(d.month, 2);
    assert s[6..] == Padded(d.year, 4);
    PaddedValue(d.day, 2);
    PaddedValue(d.month, 2);
    PaddedValue(d.year, 4);
    FieldsValues(s);
  }

  /** Text the parser accepts is exactly the formatting of what it parsed. */
  lemma FormatParse(s: string)
    requires ParseDate(s).Some?
    ensures FormatDate(ParseDate(s).value) == s
  {
    var d := ParseDate(s).value;
    FieldsValues(s);
    ValuePadded(s[..2]);
    ValuePadded(s[3..5]);
    ValuePadded(s[6..]);
    assert Padded(d.day, 2) == s[..2];
    assert Padded(d.month, 2) == s[3..5];
    assert Padded(d.year, 4) == s[6..];
    SplitAtSlashes(s);
  }

  lemma SplitAtSlashes(s: string)
    requires HasDateShape(s)
    ensures s == s[..2] + "/" + s[3..5] + "/" + s[6..]
  {
    assert s == s[..2] + [s[2]] + s[3..5] + [s[5]] + s[6..];
  }

  /** The leap-year rule at work: 29 February exists in 2024 and 2000 but
      not in 2023 or 1900. */
  lemma LeapDayExamples()
    ensures ParseDate("29/02/2024") == Some(Date(2024, 2, 29))
    ensures ParseDate("29/02/2000") == Some(Date(2000, 2, 29))
    ensures ParseDate("29/02/2023").None? && ParseDate("29/02/1900").None?
  {
  }

  /** Days past the end of the month, day zero, month thirteen and other
      layouts are rejected. */
  lemma RejectedDateExamples()
    ensures ParseDate("31/02/2024").None? && ParseDate("31/04/2024").None?
    ensures ParseDate("00/01/2024").None? && ParseDate("01/13/2024").None?
    ensures ParseDate("2024-01-01").None?
  {
  }

  /** Leap years in 1 .. y-1 (for y >= 1). */
  function LeapYearsBefore(y: int): int
  {
    (y - 1) / 4 - (y - 1) / 100 + (y - 1) / 400
  }

  /** Days from 1970-01-01 to the first of January of year `y`. */
  function DaysBeforeYear(y: int): int
  {
    365 * (y - 1970) + LeapYearsBefore(y) - LeapYearsBefore(1970)
  }

  /** Days from the first of January to the first of month `m` of year `y`. */
  function DaysBeforeMonth(y: int, m: int): int
    requires 1 <= m <= 12
  {
    var common :=
      match m
      case 1 => 0 case 2 => 31 case 3 => 59 case 4 => 90 case 5 => 120 case 6 => 151
      case 7 => 181 case 8 => 212 case 9 => 243 case 10 => 273 case 11 => 304 case _ => 334;
    common + (if m > 2 && IsLeapYear(y) then 1 else 0)
  }

  /** numpy's day number: days since 1970-01-01. */
  function DayNumber(d: Date): int
    requires IsValidDate(d)
  {
    DaysBeforeYear(d.year) + DaysBeforeMonth(d.year, d.month) + d.day - 1
  }

  /** The calendar day after `d`. */
  function NextDate(d: Date): Date
    requires IsValidDate(d)
  {
    if d.day < DaysInMonth(d.year, d.month) then Date(d.year, d.month, d.day + 1)
    else if d.month < 12 then Date(d.year, d.month + 1, 1)
    else Date(d.year + 1, 1, 1)
  }

  lemma DivisionStep(y: int)
    ensures y / 4 - (y - 1) / 4 == (if y % 4 == 0 then 1 else 0)
    ensures y / 100 - (y - 1) / 100 == (if y % 100 == 0 then 1 else 0)
    ensures y / 400 - (y - 1) / 400 == (if y % 400 == 0 then 1 else 0)
  {
  }

  /** A year is 366 days long when it is a leap year and 365 otherwise. */
  lemma YearLength(y: int)
    ensures DaysBeforeYear(y + 1) - DaysBeforeYear(y) == (if IsLeapYear(y) then 366 else 365)
  {
    DivisionStep(y);
  }

  /** Day numbers count consecutive calendar days. */
  lemma DayNumberNext(d: Date)
    requires IsValidDate(d) && d.year < 9999
    ensures IsValidDate(NextDate(d))
    ensures DayNumber(NextDate(d)) == DayNumber(d) + 1
  {
    if d.day == DaysInMonth(d.year, d.month) && d.month == 12 {
      YearLength(d.year);
    }
  }

  /** Anchors: the epoch is day 0, and 2024-01-01 is day 19723. */
  lemma DayNumberAnchors()
    ensures DayNumber(Date(1970, 1, 1)) == 0
    ensures DayNumber(Date(2024, 1, 1)) == 19723
    ensures DayNumber(Date(2024, 3, 1)) == 19783
  {
  }
}

=== FILE: column_names.dfy ===
/** Column-name normalisation of the dashboard loader (dash.py:16-24):
    strip accents, trim surrounding whitespace, lower-case, and turn every
    space into an underscore, so that a header written "Número de Pontos"
    and one written "numero_de_pontos" resolve to the same key.

    The Unicode tables the source consults (compatibility decomposition,
    the combining-mark property, lower-casing, whitespace) are given as a
    `CharTable`; `Coherent` states what the proofs need of such a table. */
module ColumnNames {
  import opened Seqs

  datatype CharTable = CharTable(
    decompose: char -> seq<char>,  // compatibility decomposition of one character
    combining: char -> bool,       // the character is a combining mark
    lower: char -> char,           // lower-case mapping
    space: char -> bool            // whitespace, as trimming understands it
  )

  /** A character the table leaves alone under decomposition. */
  predicate Decomposed(t: CharTable, c: char)
  {
    t.decompose(c) == [c]
  }

  /** What idempotence of `NormalizeName` rests on:
      - decomposition output is already fully decomposed;
      - lower-casing a decomposed, non-combining character yields a
        decomposed, non-combining character that lower-casing fixes, and
        never turns a non-space into whitespace;
      - the space is whitespace, and the underscore is an ordinary
        character that nothing changes. */
  ghost predicate Coherent(t: CharTable)
  {
    && t.space(' ')
    && !t.space('_') && !t.combining('_') && t.lower('_') == '_' && Decomposed(t, '_')
    && (forall c, i :: 0 <= i < |t.decompose(c)| ==> Decomposed(t, t.decompose(c)[i]))
    && (forall c :: Decomposed(t, c) && !t.combining(c) ==>
          && Decomposed(t, t.lower(c))
          && !t.combining(t.lower(c))
          && t.lower(t.lower(c)) == t.lower(c)
          && (t.space(t.lower(c)) ==> t.space(c)))
  }

  /** Concatenated decompositions of every character of `s`. */
  function DecomposeAll(t: CharTable, s: string): (r: string)
    ensures (forall c, i :: 0 <= i < |t.decompose(c)| ==> Decomposed(t, t.decompose(c)[i])) ==>
              forall j :: 0 <= j < |r| ==> Decomposed(t, r[j])
  {
    if |s| == 0 then []
    else t.decompose(s[0]) + DecomposeAll(t, s[1..])
  }

  /** The characters remove_accents keeps. */
  function NotCombining(t: CharTable): char -> bool
  {
    (c: char) => !t.combining(c)
  }

  /** remove_accents: decompose, then drop the combining marks. */
  function RemoveAccents(t: CharTable, s: string): (r: string)
    ensures forall j :: 0 <= j < |r| ==> !t.combining(r[j])
    ensures Coherent(t) ==> forall j :: 0 <= j < |r| ==> Decomposed(t, r[j])
  {
    Filter(DecomposeAll(t, s), NotCombining(t))
  }

  /** Only the combining marks are dropped: every other character of the
      decomposition is kept, as often as it occurs and in its original
      order. */
  lemma RemoveAccentsKeepsTheRest(t: CharTable, s: string)
    ensures forall c :: multiset(RemoveAccents(t, s))[c] == if t.combining(c) then 0 else multiset(DecomposeAll(t, s))[c]
    ensures Subsequence(RemoveAccents(t, s), DecomposeAll(t, s))
  {
    FilterMultiplicity(DecomposeAll(t, s), NotCombining(t));
    FilterIsSubsequence(DecomposeAll(t, s), NotCombining(t));
  }

  /** Number of leading whitespace characters. */
  function LeadingSpaces(t: CharTable, s: string): (n: nat)
    ensures n <= |s|
    ensures forall i :: 0 <= i < n ==> t.space(s[i])
    ensures n == |s| || !t.space(s[n])
  {
    if |s| == 0 || !t.space(s[0]) then 0 else 1 + LeadingSpaces(t, s[1..])
  }

  /** Number of trailing whitespace characters. */
  function TrailingSpaces(t: CharTable, s: string): (n: nat)
    ensures n <= |s|
    ensures forall i :: |s| - n <= i < |s| ==> t.space(s[i])
    ensures n == |s| || !t.space(s[|s| - n - 1])
  {
    if |s| == 0 || !t.space(s[|s| - 1]) then 0 else 1 + TrailingSpaces(t, s[..|s| - 1])
  }

  /** str.strip(): cut the leading and the trailing whitespace. */
  function Trim(t: CharTable, s: string): (r: string)
    ensures |r| <= |s|
    ensures |r| == 0 || (!t.space(r[0]) && !t.space(r[|r| - 1]))
    ensures forall i :: 0 <= i < |r| ==> r[i] in s
  {
    var rest := s[LeadingSpaces(t, s)..];
    rest[..|rest| - TrailingSpaces(t, rest)]
  }

  /** What trimming keeps is an infix of the input, and all it cuts away,
      on either side, is whitespace. */
  lemma TrimCutsOnlySpace(t: CharTable, s: string)
    ensures exists a, b :: 0 <= a <= b <= |s| && Trim(t, s) == s[a..b]
              && (forall i :: 0 <= i < a ==> t.space(s[i]))
              && (forall i :: b <= i < |s| ==> t.space(s[i]))
  {
    var a := LeadingSpaces(t, s);
    var rest := s[a..];
    var b := |rest| - TrailingSpaces(t, rest);
    assert rest[..b] == s[a..a + b];
    assert forall i :: a + b <= i < |s| ==> s[i] == rest[i - a];
  }

  /** str.lower(), one character at a time. */
  function Lower(t: CharTable, s: string): string
  {
    seq(|s|, i requires 0 <= i < |s| => t.lower(s[i]))
  }

  /** str.replace(' ', '_'). */
  function Underscore(s: string): string
  {
    seq(|s|, i requires 0 <= i < |s| => if s[i] == ' ' then '_' else s[i])
  }

  /** The key one header becomes: accents removed, trimmed, lower-cased,
      spaces turned into underscores. */
  function NormalizeName(t: CharTable, s: string): (r: string)
    ensures ' ' !in r
  {
    Underscore(Lower(t, Trim(t, RemoveAccents(t, s))))
  }

  /** No combining mark survives normalisation, provided lower-casing never
      produces one and the underscore is not one. */
  lemma NormalizedHasNoMarks(t: CharTable, s: string)
    requires !t.combining('_')
    requires forall c :: !t.combining(c) ==> !t.combining(t.lower(c))
    ensures forall i :: 0 <= i < |NormalizeName(t, s)| ==> !t.combining(NormalizeName(t, s)[i])
  {
    var a := RemoveAccents(t, s);
    var m := Trim(t, a);
    assert forall i :: 0 <= i < |m| ==> m[i] in a;
  }

  /** normalize_column_names: every header of the table, in order. */
  function NormalizeColumns(t: CharTable, columns: seq<string>): (r: seq<string>)
    ensures |r| == |columns|
    ensures forall i :: 0 <= i < |r| ==> r[i] == NormalizeName(t, columns[i])
  {
    if |columns| == 0 then [] else [NormalizeName(t, columns[0])] + NormalizeColumns(t, columns[1..])
  }

  /** A character that every step of the normalisation leaves in place. */
  predicate Stable(t: CharTable, c: char)
  {
    Decomposed(t, c) && !t.combining(c) && t.lower(c) == c && c != ' '
  }

  /** Decomposing characters the table leaves alone changes nothing. */
  lemma {:induction false} DecomposeAllFixed(t: CharTable, s: string)
    requires forall i :: 0 <= i < |s| ==> Decomposed(t, s[i])
    ensures DecomposeAll(t, s) == s
  {
    if |s| > 0 {
      DecomposeAllFixed(t, s[1..]);
      assert [s[0]] + s[1..] == s;
    }
  }

  lemma {:induction false} DecomposeAllConcat(t: CharTable, a: string, b: string)
    ensures DecomposeAll(t, a + b) == DecomposeAll(t, a) + DecomposeAll(t, b)
  {
    if |a| == 0 {
      assert a + b == b;
    } else {
      assert (a + b)[1..] == a[1..] + b;
      DecomposeAllConcat(t, a[1..], b);
    }
  }

  lemma LowerStable(t: CharTable, s: string)
    requires forall i :: 0 <= i < |s| ==> Stable(t, s[i])
    ensures Lower(t, s) == s
  {
  }

  lemma UnderscoreStable(s: string)
    requires ' ' !in s
    ensures Underscore(s) == s
  {
  }

  /** A string that starts and ends with non-whitespace is its own trim. */
  lemma TrimUntouched(t: CharTable, s: string)
    requires |s| == 0 || (!t.space(s[0]) && !t.space(s[|s| - 1]))
    ensures Trim(t, s) == s
  {
    assert LeadingSpaces(t, s) == 0;
    assert s[0..] == s;
    assert TrailingSpaces(t, s) == 0;
  }

  /** A decomposed, non-combining character stays stable once it is
      lower-cased and, if a space, turned into an underscore. */
  lemma CharBecomesStable(t: CharTable, c: char)
    requires Coherent(t)
    requires Decomposed(t, c) && !t.combining(c)
    ensures Stable(t, if t.lower(c) == ' ' then '_' else t.lower(c))
  {
  }

  /** The trimmed, unaccented name holds only decomposed, non-combining
      characters. */
  lemma TrimmedIsPlain(t: CharTable, s: string)
    requires Coherent(t)
    ensures var m := Trim(t, RemoveAccents(t, s));
      forall i :: 0 <= i < |m| ==> Decomposed(t, m[i]) && !t.combining(m[i])
  {
    var a := RemoveAccents(t, s);
    var m := Trim(t, a);
    forall i | 0 <= i < |m|
      ensures Decomposed(t, m[i]) && !t.combining(m[i])
    {
      assert m[i] in a;
      var j :| 0 <= j < |a| && a[j] == m[i];
    }
  }

  /** Lower-casing and underscoring plain characters gives stable ones, and
      keeps non-whitespace ends non-whitespace. */
  lemma FinishingIsStable(t: CharTable, m: string)
    requires Coherent(t)
    requires forall i :: 0 <= i < |m| ==> Decomposed(t, m[i]) && !t.combining(m[i])
    requires |m| == 0 || (!t.space(m[0]) && !t.space(m[|m| - 1]))
    ensures var r := Underscore(Lower(t, m));
      forall i :: 0 <= i < |r| ==> Stable(t, r[i])
    ensures var r := Underscore(Lower(t, m));
      |r| == 0 || (!t.space(r[0]) && !t.space(r[|r| - 1]))
  {
    var l := Lower(t, m);
    var r := Underscore(l);
    forall i | 0 <= i < |r|
      ensures Stable(t, r[i])
    {
      assert r[i] == (if l[i] == ' ' then '_' else l[i]);
      assert l[i] == t.lower(m[i]);
      CharBecomesStable(t, m[i]);
    }
  }

  /** Every character of a normalised name is stable, and the name neither
      starts nor ends with whitespace. */
  lemma NormalizedIsStable(t: CharTable, s: string)
    requires Coherent(t)
    ensures forall i :: 0 <= i < |NormalizeName(t, s)| ==> Stable(t, NormalizeName(t, s)[i])
    ensures var r := NormalizeName(t, s); |r| == 0 || (!t.space(r[0]) && !t.space(r[|r| - 1]))
  {
    var m := Trim(t, RemoveAccents(t, s));
    TrimmedIsPlain(t, s);
    FinishingIsStable(t, m);
    assert NormalizeName(t, s) == Underscore(Lower(t, m));
  }

  /** A name made only of stable characters, neither starting nor ending
      with whitespace, is its own key. */
  lemma NormalizeFixesStable(t: CharTable, s: string)
    requires forall i :: 0 <= i < |s| ==> Stable(t, s[i])
    requires |s| == 0 || (!t.space(s[0]) && !t.space(s[|s| - 1]))
    ensures NormalizeName(t, s) == s
  {
    DecomposeAllFixed(t, s);
    FilterKeepsAll(s, NotCombining(t));
    assert RemoveAccents(t, s) == s;
    TrimUntouched(t, s);
    LowerStable(t, s);
    UnderscoreStable(s);
  }

  /** Normalising an already normalised name changes nothing. */
  lemma NormalizeIdempotent(t: CharTable, s: string)
    requires Coherent(t)
    ensures NormalizeName(t, NormalizeName(t, s)) == NormalizeName(t, s)
  {
    NormalizedIsStable(t, s);
    NormalizeFixesStable(t, NormalizeName(t, s));
  }

  /** A table covering the accented letters of Portuguese headers, with ASCII
      lower-casing and the ASCII whitespace characters. */
  function Portuguese(): CharTable
  {
    CharTable(PortugueseDecompose, IsCombiningMark, AsciiLower, IsAsciiSpace)
  }

  /** The Combining Diacritical Marks block, less U+034F COMBINING GRAPHEME
      JOINER, whose canonical combining class is 0. */
  predicate IsCombiningMark(c: char)
  {
    '\U{0300}' <= c <= '\U{036F}' && c != '\U{034F}'
  }

  function AsciiLower(c: char): char
  {
    if 'A' <= c <= 'Z' then (c as int + 32) as char else c
  }

  predicate IsAsciiSpace(c: char)
  {
    c == ' ' || c == '\t' || c == '\n' || c == '\r' || c == '\U{000B}' || c == '\U{000C}'
  }

  /** Canonical decompositions of the accented letters used in Portuguese. */
  function PortugueseDecompose(c: char): seq<char>
  {
    if c < 'À' || 'ü' < c then [c]
    else match c
    case 'á' => ['a', '\U{0301}']  case 'Á' => ['A', '\U{0301}']
    case 'à' => ['a', '\U{0300}']  case 'À' => ['A', '\U{0300}']
    case 'â' => ['a', '\U{0302}']  case 'Â' => ['A', '\U{0302}']
    case 'ã' => ['a', '\U{0303}']  case 'Ã' => ['A', '\U{0303}']
    case 'é' => ['e', '\U{0301}']  case 'É' => ['E', '\U{0301}']
    case 'ê' => ['e', '\U{0302}']  case 'Ê' => ['E', '\U{0302}']
    case 'í' => ['i', '\U{0301}']  case 'Í' => ['I', '\U{0301}']
    case 'ó' => ['o', '\U{0301}']  case 'Ó' => ['O', '\U{0301}']
    case 'ô' => ['o', '\U{0302}']  case 'Ô' => ['O', '\U{0302}']
    case 'õ' => ['o', '\U{0303}']  case 'Õ' => ['O', '\U{0303}']
    case 'ú' => ['u', '\U{0301}']  case 'Ú' => ['U', '\U{0301}']
    case 'ü' => ['u', '\U{0308}']  case 'Ü' => ['U', '\U{0308}']
    case 'ç' => ['c', '\U{0327}']  case 'Ç' => ['C', '\U{0327}']
    case _ => [c]
  }

  /** Each entry of the table is either the character itself or an ASCII
      letter followed by one combining mark. */
  lemma PortugueseDecomposeShape(c: char)
    ensures var d := PortugueseDecompose(c);
      d == [c] || (|d| == 2 && d[0] < 'À' && IsCombiningMark(d[1]))
  {
  }

  lemma PortugueseIsCoherent()
    ensures Coherent(Portuguese())
  {
    var t := Portuguese();
    forall c, i | 0 <= i < |t.decompose(c)|
      ensures Decomposed(t, t.decompose(c)[i])
    {
      PortugueseDecomposeShape(c);
      var d := PortugueseDecompose(c);
      if d != [c] {
        assert PortugueseDecompose(d[0]) == [d[0]];
        assert PortugueseDecompose(d[1]) == [d[1]];
      }
    }
    forall c | Decomposed(t, c) && !t.combining(c)
      ensures Decomposed(t, t.lower(c)) && !t.combining(t.lower(c))
      ensures t.lower(t.lower(c)) == t.lower(c) && (t.space(t.lower(c)) ==> t.space(c))
    {
      var l := AsciiLower(c);
      if 'A' <= c <= 'Z' {
        assert 'a' <= l <= 'z';
        assert PortugueseDecompose(l) == [l];
      } else {
        assert l == c;
      }
    }
    assert PortugueseDecompose('_') == ['_'];
  }

  // The header "Número de Pontos" is written below as "N" + "ú" + "mero de
  // Pontos" so that each piece can be decomposed on its own.

  lemma AccentedLetterDecomposed()
    ensures DecomposeAll(Portuguese(), "ú") == "u\U{0301}"
  {
    assert Portuguese().decompose == PortugueseDecompose;
  }

  lemma PlainTextDecomposed(s: string)
    requires forall i :: 0 <= i < |s| ==> s[i] < 'À'
    ensures DecomposeAll(Portuguese(), s) == s
  {
    var t := Portuguese();
    assert t.decompose == PortugueseDecompose;
    DecomposeAllFixed(t, s);
  }

  lemma PointsHeaderDecomposed()
    ensures DecomposeAll(Portuguese(), "N" + "ú" + "mero de Pontos") == "N" + "u\U{0301}" + "mero de Pontos"
  {
    var t := Portuguese();
    DecomposeAllConcat(t, "N" + "ú", "mero de Pontos");
    DecomposeAllConcat(t, "N", "ú");
    HeadDecomposed();
    AccentedLetterDecomposed();
    TailDecomposed();
  }

  lemma HeadDecomposed()
    ensures DecomposeAll(Portuguese(), "N") == "N"
  {
    PlainTextDecomposed("N");
  }

  lemma TailDecomposed()
    ensures DecomposeAll(Portuguese(), "mero de Pontos") == "mero de Pontos"
  {
    PlainTextDecomposed("mero de Pontos");
  }

  /** Text without combining marks passes the accent filter whole. */
  lemma PlainTextKept(s: string)
    requires forall i :: 0 <= i < |s| ==> s[i] < '\U{0300}'
    ensures Filter(s, NotCombining(Portuguese())) == s
  {
    var t := Portuguese();
    assert t.combining == IsCombiningMark;
    FilterKeepsAll(s, NotCombining(t));
  }

  lemma MarkDropped()
    ensures Filter("\U{0301}", NotCombining(Portuguese())) == []
  {
    var t := Portuguese();
    assert t.combining == IsCombiningMark;
    assert NotCombining(t)('\U{0301}') == !t.combining('\U{0301}');
    assert "\U{0301}"[1..] == [];
  }

  lemma HeadKept()
    ensures Filter("N" + "u", NotCombining(Portuguese())) == "Nu"
  {
    PlainTextKept("N" + "u");
  }

  lemma TailKept()
    ensures Filter("mero de Pontos", NotCombining(Portuguese())) == "mero de Pontos"
  {
    PlainTextKept("mero de Pontos");
  }

  lemma DecomposedHeadFiltered()
    ensures Filter("N" + "u\U{0301}", NotCombining(Portuguese())) == "Nu"
  {
    assert "N" + "u\U{0301}" == "N" + "u" + "\U{0301}";
    FilterConcat("N" + "u", "\U{0301}", NotCombining(Portuguese()));
    HeadKept();
    MarkDropped();
  }

  lemma DecomposedHeaderSplit()
    ensures Filter("N" + "u\U{0301}" + "mero de Pontos", NotCombining(Portuguese()))
         == Filter("N" + "u\U{0301}", NotCombining(Portuguese())) + Filter("mero de Pontos", NotCombining(Portuguese()))
  {
    FilterConcat("N" + "u\U{0301}", "mero de Pontos", NotCombining(Portuguese()));
  }

  lemma PointsHeaderUnaccented()
    ensures RemoveAccents(Portuguese(), "N" + "ú" + "mero de Pontos") == "Numero de Pontos"
  {
    PointsHeaderDecomposed();
    DecomposedHeaderSplit();
    DecomposedHeadFiltered();
    TailKept();
    UnaccentedJoined();
  }

  lemma UnaccentedJoined()
    ensures "Nu" + "mero de Pontos" == "Numero de Pontos"
  {
  }

  lemma PointsHeaderTrimmed()
    ensures Trim(Portuguese(), "Numero de Pontos") == "Numero de Pontos"
  {
    var t := Portuguese();
    assert t.space == IsAsciiSpace;
    TrimUntouched(t, "Numero de Pontos");
  }

  lemma PointsHeaderLowered()
    ensures Lower(Portuguese(), "Numero de Pontos") == "numero de pontos"
  {
    var t := Portuguese();
    assert t.lower == AsciiLower;
    var stripped := "Numero de Pontos";
    var lowered := Lower(t, stripped);
    forall i | 0 <= i < |stripped|
      ensures lowered[i] == AsciiLower(stripped[i])
    {
    }
  }

  lemma PointsHeaderUnderscored()
    ensures Underscore("numero de pontos") == "numero_de_pontos"
  {
    var lowered := "numero de pontos";
    var keyed := Underscore(lowered);
    forall i | 0 <= i < |lowered|
      ensures keyed[i] == (if lowered[i] == ' ' then '_' else lowered[i])
    {
    }
  }

  /** The points header resolves to the key the statistics read. */
  lemma PointsHeaderKey()
    ensures NormalizeName(Portuguese(), "N" + "ú" + "mero de Pontos") == "numero_de_pontos"
  {
    PointsHeaderUnaccented();
    PointsHeaderTrimmed();
    PointsHeaderLowered();
    PointsHeaderUnderscored();
  }

  /** A header already written as the key, and the accented header, name
      the same column. */
  lemma HeadersResolveAlike()
    ensures NormalizeName(Portuguese(), "N" + "ú" + "mero de Pontos") == NormalizeName(Portuguese(), "numero_de_pontos")
  {
    PointsHeaderKey();
    PortugueseIsCoherent();
    NormalizeIdempotent(Portuguese(), "N" + "ú" + "mero de Pontos");
  }
}

=== FILE: daily.dfy ===
/** The performance page's daily series (desempenho.py:70): the points summed
    per calendar date, one entry per date, in ascending date order. Rows
    without a date form no group, as groupby drops missing keys. */
module Daily {
  import opened Seqs

  /** A retained row of the sheet: its date (a day number, or missing) and
      its points. */
  datatype Sample = Sample(date: Option<int>, pontos: real)

  /** One entry of the daily series. */
  datatype DailyTotal = DailyTotal(date: int, points: real)

  predicate StrictlyAscending(ds: seq<DailyTotal>)
  {
    forall i, j :: 0 <= i < j < |ds| ==> ds[i].date < ds[j].date
  }

  function Dates(ds: seq<DailyTotal>): set<int>
  {
    set i | 0 <= i < |ds| :: ds[i].date
  }

  /** The points the series shows for date `d`; zero for a date it lacks. */
  function Lookup(ds: seq<DailyTotal>, d: int): real
  {
    if |ds| == 0 then 0.0 else if ds[0].date == d then ds[0].points else Lookup(ds[1..], d)
  }

  /** Sum of the entries of a series. */
  function TotalOf(ds: seq<DailyTotal>): real
  {
    if |ds| == 0 then 0.0 else ds[0].points + TotalOf(ds[1..])
  }

  lemma DatesTail(ds: seq<DailyTotal>)
    requires |ds| > 0
    ensures Dates(ds) == {ds[0].date} + Dates(ds[1..])
  {
    forall d | d in Dates(ds)
      ensures d in {ds[0].date} + Dates(ds[1..])
    {
      var i :| 0 <= i < |ds| && ds[i].date == d;
      if i > 0 {
        assert ds[1..][i - 1].date == d;
      }
    }
    forall d | d in Dates(ds[1..])
      ensures d in Dates(ds)
    {
      var i :| 0 <= i < |ds[1..]| && ds[1..][i].date == d;
      assert ds[i + 1].date == d;
    }
  }

  /** An entry dated before every entry of an ascending series can head it. */
  lemma ConsAscending(x: DailyTotal, rest: seq<DailyTotal>)
    requires StrictlyAscending(rest)
    requires forall e :: e in Dates(rest) ==> x.date < e
    ensures StrictlyAscending([x] + rest)
    ensures Dates([x] + rest) == {x.date} + Dates(rest)
  {
    var r := [x] + rest;
    assert r[1..] == rest;
    DatesTail(r);
    forall i, j | 0 <= i < j < |r|
      ensures r[i].date < r[j].date
    {
      assert r[j] == rest[j - 1];
      if i > 0 {
        assert r[i] == rest[i - 1];
      } else {
        assert rest[j - 1].date in Dates(rest);
      }
    }
  }

  /** The head of an ascending series is dated before the rest of it, and
      the rest is ascending. */
  lemma HeadBeforeTail(ds: seq<DailyTotal>)
    requires StrictlyAscending(ds) && |ds| > 0
    ensures StrictlyAscending(ds[1..])
    ensures forall e :: e in Dates(ds[1..]) ==> ds[0].date < e
    ensures Dates(ds) == {ds[0].date} + Dates(ds[1..])
  {
    DatesTail(ds);
    forall e | e in Dates(ds[1..])
      ensures ds[0].date < e
    {
      var i :| 0 <= i < |ds[1..]| && ds[1..][i].date == e;
      assert ds[i + 1].date == e;
    }
  }

  /** Adds `p` points on date `d`: a new entry in its place, or a larger
      entry for a date already present. */
  function AddPoint(ds: seq<DailyTotal>, d: int, p: real): (r: seq<DailyTotal>)
    requires StrictlyAscending(ds)
    ensures StrictlyAscending(r)
    ensures Dates(r) == Dates(ds) + {d}
  {
    if |ds| == 0 then
      ConsAscending(DailyTotal(d, p), []);
      assert [DailyTotal(d, p)] + [] == [DailyTotal(d, p)];
      [DailyTotal(d, p)]
    else
      HeadBeforeTail(ds);
      if d < ds[0].date then
        ConsAscending(DailyTotal(d, p), ds);
        [DailyTotal(d, p)] + ds
      else if d == ds[0].date then
        ConsAscending(DailyTotal(d, ds[0].points + p), ds[1..]);
        [DailyTotal(d, ds[0].points + p)] + ds[1..]
      else
        var rest := AddPoint(ds[1..], d, p);
        ConsAscending(ds[0], rest);
        [ds[0]] + rest
  }

  /** A date with no entry in an ascending series looks up as zero. */
  lemma {:induction false} AbsentLookup(ds: seq<DailyTotal>, d: int)
    requires StrictlyAscending(ds)
    requires d !in Dates(ds)
    ensures Lookup(ds, d) == 0.0
  {
    if |ds| > 0 {
      DatesTail(ds);
      AbsentLookup(ds[1..], d);
    }
  }

  /** Adding points on `d` raises the entry of `d` by exactly those points
      and leaves every other date as it was. */
  lemma {:induction false} AddPointLookup(ds: seq<DailyTotal>, d: int, p: real, e: int)
    requires StrictlyAscending(ds)
    ensures Lookup(AddPoint(ds, d, p), e) == Lookup(ds, e) + (if e == d then p else 0.0)
  {
    var r := AddPoint(ds, d, p);
    if |ds| == 0 {
      assert r == [DailyTotal(d, p)];
      assert r[1..] == [];
    } else if d < ds[0].date {
      assert r == [DailyTotal(d, p)] + ds;
      assert r[1..] == ds;
      if e == d {
        HeadBeforeTail(ds);
        AbsentLookup(ds, d);
      }
    } else if d == ds[0].date {
      assert r == [DailyTotal(d, ds[0].points + p)] + ds[1..];
      assert r[1..] == ds[1..];
    } else {
      HeadBeforeTail(ds);
      AddPointLookup(ds[1..], d, p, e);
      assert r == [ds[0]] + AddPoint(ds[1..], d, p);
      assert r[1..] == AddPoint(ds[1..], d, p);
    }
  }

  /** Adding points on a date raises the series' total by those points. */
  lemma {:induction false} AddPointTotal(ds: seq<DailyTotal>, d: int, p: real)
    requires StrictlyAscending(ds)
    ensures TotalOf(AddPoint(ds, d, p)) == TotalOf(ds) + p
  {
    if |ds| > 0 {
      var r := AddPoint(ds, d, p);
      if d < ds[0].date {
        assert r[1..] == ds;
      } else if d == ds[0].date {
        assert r[1..] == ds[1..];
      } else {
        AddPointTotal(ds[1..], d, p);
        assert r[1..] == AddPoint(ds[1..], d, p);
      }
    }
  }

  /** The points of the samples dated `d`. */
  function SumOn(s: seq<Sample>, d: int): real
  {
    if |s| == 0 then 0.0 else (if s[0].date == Some(d) then s[0].pontos else 0.0) + SumOn(s[1..], d)
  }

  /** The points of all dated samples. */
  function DatedTotal(s: seq<Sample>): real
  {
    if |s| == 0 then 0.0 else (if s[0].date.Some? then s[0].pontos else 0.0) + DatedTotal(s[1..])
  }

  /** The points of the samples without a date. */
  function UndatedTotal(s: seq<Sample>): real
  {
    if |s| == 0 then 0.0 else (if s[0].date.None? then s[0].pontos else 0.0) + UndatedTotal(s[1..])
  }

  /** Every sample is either dated or not. */
  lemma {:induction false} DatedPlusUndated(s: seq<Sample>)
    ensures DatedTotal(s) + UndatedTotal(s) == Sum(PointsOf(s))
  {
    if |s| > 0 {
      DatedPlusUndated(s[1..]);
      assert PointsOf(s)[1..] == PointsOf(s[1..]);
    }
  }

  /** The points column of the samples. */
  function PointsOf(s: seq<Sample>): (xs: seq<real>)
    ensures |xs| == |s|
  {
    seq(|s|, i requires 0 <= i < |s| => s[i].pontos)
  }

  /** The dates present among the samples. */
  function PresentDates(s: seq<Sample>): set<int>
  {
    set i | 0 <= i < |s| && s[i].date.Some? :: s[i].date.value
  }

  lemma PresentDatesTail(s: seq<Sample>)
    requires |s| > 0
    ensures PresentDates(s) == PresentDates(s[1..]) + (if s[0].date.Some? then {s[0].date.value} else {})
  {
    forall d | d in PresentDates(s)
      ensures d in PresentDates(s[1..]) + (if s[0].date.Some? then {s[0].date.value} else {})
    {
      var i :| 0 <= i < |s| && s[i].date.Some? && s[i].date.value == d;
      if i > 0 {
        assert s[1..][i - 1] == s[i];
      }
    }
    forall d | d in PresentDates(s[1..])
      ensures d in PresentDates(s)
    {
      var i :| 0 <= i < |s[1..]| && s[1..][i].date.Some? && s[1..][i].date.value == d;
      assert s[i + 1] == s[1..][i];
    }
  }

  /** groupby(date)['número de pontos'].sum(): one entry per date present,
      in ascending order, each holding the points of exactly the samples of
      that date; together they hold the points of all dated samples. */
  function DailySums(s: seq<Sample>): (r: seq<DailyTotal>)
    ensures StrictlyAscending(r)
    ensures Dates(r) == PresentDates(s)
    ensures forall d :: Lookup(r, d) == SumOn(s, d)
    ensures TotalOf(r) == DatedTotal(s)
  {
    if |s| == 0 then
      assert Dates([]) == {};
      []
    else
      PresentDatesTail(s);
      var rest := DailySums(s[1..]);
      match s[0].date
      case None => rest
      case Some(d) =>
        AddPointTotal(rest, d, s[0].pontos);
        assert forall e :: Lookup(AddPoint(rest, d, s[0].pontos), e) == SumOn(s, e) by {
          forall e
            ensures Lookup(AddPoint(rest, d, s[0].pontos), e) == SumOn(s, e)
          {
            AddPointLookup(rest, d, s[0].pontos, e);
          }
        }
        AddPoint(rest, d, s[0].pontos)
  }

  /** In an ascending series, the lookup of an entry's date is that entry. */
  lemma {:induction false} LookupEntry(ds: seq<DailyTotal>, k: nat)
    requires StrictlyAscending(ds) && k < |ds|
    ensures Lookup(ds, ds[k].date) == ds[k].points
  {
    if k > 0 {
      LookupEntry(ds[1..], k - 1);
    }
  }

  /** Each entry of the daily series is the sum over its date's samples. */
  lemma EntryIsDaySum(s: seq<Sample>, k: nat)
    requires k < |DailySums(s)|
    ensures DailySums(s)[k].points == SumOn(s, DailySums(s)[k].date)
  {
    LookupEntry(DailySums(s), k);
  }

  /** When every sample has a date, the daily series adds up to the total
      of the points. */
  lemma DailyKeepsTotal(s: seq<Sample>)
    requires forall i :: 0 <= i < |s| ==> s[i].date.Some?
    ensures TotalOf(DailySums(s)) == Sum(PointsOf(s))
  {
    DatedPlusUndated(s);
    NoUndated(s);
  }

  lemma {:induction false} NoUndated(s: seq<Sample>)
    requires forall i :: 0 <= i < |s| ==> s[i].date.Some?
    ensures UndatedTotal(s) == 0.0
  {
    if |s| > 0 {
      NoUndated(s[1..]);
    }
  }

  /** Three rows of 10, 20 and 5 points on one day give one entry of 35. */
  lemma OneDayExample(d: int)
    ensures DailySums([Sample(Some(d), 10.0), Sample(Some(d), 20.0), Sample(Some(d), 5.0)])
      == [DailyTotal(d, 35.0)]
  {
    var s := [Sample(Some(d), 10.0), Sample(Some(d), 20.0), Sample(Some(d), 5.0)];
    assert s[1..] == [Sample(Some(d), 20.0), Sample(Some(d), 5.0)];
    assert s[1..][1..] == [Sample(Some(d), 5.0)];
    assert s[1..][1..][1..] == [];
    assert DailySums([Sample(Some(d), 5.0)]) == [DailyTotal(d, 5.0)];
    assert DailySums(s[1..]) == [DailyTotal(d, 25.0)];
  }
}

=== FILE: dash_data.dfy ===
/** The main dashboard's rows: loading with the date column parsed and rows
    with unreadable dates dropped (dash.py:62-68), and the filter by the
    names selected in the sidebar (dash.py:80-82, 263-267). */
module DashData {
  import opened Seqs
  import opened Calendar
  import opened ColumnNames

  /** One CSV record: the text of the date column, the name and the points. */
  datatype RawRow = RawRow(data: string, nome: string, pontos: real)

  /** A cleaned record; the date is numpy's day number (days since 1970-01-01). */
  datatype Row = Row(date: int, nome: string, pontos: real)

  /** Day numbers pandas can hold as nanosecond timestamps at midnight:
      22 September 1677 through 11 April 2262. */
  predicate InTimestampRange(day: int)
  {
    -106751 <= day <= 106751
  }

  /** The date text names a calendar date that pandas can represent. */
  predicate HasValidDate(r: RawRow)
  {
    ParseDate(r.data).Some? && InTimestampRange(DayNumber(ParseDate(r.data).value))
  }

  function ToRow(r: RawRow): Row
    requires HasValidDate(r)
  {
    Row(DayNumber(ParseDate(r.data).value), r.nome, r.pontos)
  }

  /** Date conversion of one record; an unreadable date becomes missing. */
  function CleanRow(r: RawRow): (o: Option<Row>)
    ensures o.Some? <==> HasValidDate(r)
  {
    match ParseDate(r.data)
    case Some(d) => if InTimestampRange(DayNumber(d)) then Some(Row(DayNumber(d), r.nome, r.pontos)) else None
    case None => None
  }

  /** Converting every record of a list whose dates are all valid. */
  function ToRows(rows: seq<RawRow>): (r: seq<Row>)
    requires forall i :: 0 <= i < |rows| ==> HasValidDate(rows[i])
    ensures |r| == |rows|
  {
    seq(|rows|, i requires 0 <= i < |rows| => ToRow(rows[i]))
  }

  lemma CleanRowConverts(r: RawRow)
    requires HasValidDate(r)
    ensures CleanRow(r) == Some(ToRow(r))
  {
  }

  lemma ToRowsCons(r: RawRow, rest: seq<RawRow>)
    requires HasValidDate(r)
    requires forall i :: 0 <= i < |rest| ==> HasValidDate(rest[i])
    ensures forall i :: 0 <= i < |[r] + rest| ==> HasValidDate(([r] + rest)[i])
    ensures ToRows([r] + rest) == [ToRow(r)] + ToRows(rest)
  {
    assert forall i :: 0 <= i < |[r] + rest| ==> HasValidDate(([r] + rest)[i]) by {
      forall i | 0 <= i < |[r] + rest|
        ensures HasValidDate(([r] + rest)[i])
      {
        if i > 0 {
          assert ([r] + rest)[i] == rest[i - 1];
        }
      }
    }
  }

  /** to_datetime(..., errors='coerce') followed by dropna(subset=['data']):
      exactly the records whose date is valid, converted, in file order. */
  function CleanDates(rows: seq<RawRow>): (r: seq<Row>)
    ensures |r| <= |rows|
    ensures r == ToRows(Filter(rows, HasValidDate))
  {
    CleanDatesKeepsValidRows(rows);
    FilterMap(rows, CleanRow)
  }

  /** Converting and dropping the records with an unreadable date keeps
      exactly the records whose date is a valid calendar date, in their
      original order, and converts each of them. */
  lemma {:induction false} CleanDatesKeepsValidRows(rows: seq<RawRow>)
    ensures FilterMap(rows, CleanRow) == ToRows(Filter(rows, HasValidDate))
  {
    if |rows| > 0 {
      CleanDatesKeepsValidRows(rows[1..]);
      var kept := Filter(rows[1..], HasValidDate);
      var cleaned := FilterMap(rows[1..], CleanRow);
      assert cleaned == ToRows(kept);
      if HasValidDate(rows[0]) {
        CleanRowConverts(rows[0]);
        assert FilterMap(rows, CleanRow) == [ToRow(rows[0])] + cleaned;
        assert Filter(rows, HasValidDate) == [rows[0]] + kept;
        ToRowsCons(rows[0], kept);
      } else {
        assert FilterMap(rows, CleanRow) == cleaned;
        assert Filter(rows, HasValidDate) == kept;
      }
    }
  }

  /** The number of records dropped is the number of unreadable dates. */
  lemma CleanDatesDropsInvalid(rows: seq<RawRow>)
    ensures |CleanDates(rows)| + Rejected(rows, CleanRow) == |rows|
  {
    FilterMapCount(rows, CleanRow);
  }

  /** The bounds of the timestamp range, as calendar dates. */
  lemma TimestampRangeBounds()
    ensures DayNumber(Date(1677, 9, 22)) == -106751
    ensures DayNumber(Date(2262, 4, 11)) == 106751
  {
  }

  /** A real calendar date outside the timestamp range is dropped too. */
  lemma OutOfRangeDropped(nome: string, pontos: real)
    ensures ParseDate("01/01/1500") == Some(Date(1500, 1, 1))
    ensures CleanRow(RawRow("01/01/1500", nome, pontos)).None?
  {
  }

  /** 31/02/2024 is dropped and 29/02/2024 becomes day 19782. */
  lemma LeapDayRows()
    ensures CleanRow(RawRow("31/02/2024", "ana", 10.0)).None?
    ensures CleanRow(RawRow("29/02/2024", "ana", 20.0)) == Some(Row(19782, "ana", 20.0))
  {
    RejectedDateExamples();
    LeapDayExamples();
    assert DayNumber(Date(2024, 2, 29)) == 19782;
  }

  /** A file with 31/02/2024 and 29/02/2024 keeps only the leap day. */
  lemma CleanDatesExample(a: RawRow, b: RawRow)
    requires a == RawRow("31/02/2024", "ana", 10.0) && b == RawRow("29/02/2024", "ana", 20.0)
    ensures CleanDates([a, b]) == [Row(19782, "ana", 20.0)]
  {
    LeapDayRows();
    var rows := [a, b];
    assert rows[1..] == [b] && [b][1..] == [];
    assert FilterMap([b], CleanRow) == [Row(19782, "ana", 20.0)] + FilterMap([], CleanRow);
    assert FilterMap(rows, CleanRow) == FilterMap([b], CleanRow);
  }

  /** The outcome of load_and_clean_data: the cleaned rows; the KeyError of
      a missing date column; or the ValueError to_datetime raises when two
      differently written headers normalise to the date key, since
      df['data'] is then a table of columns that it cannot assemble into
      dates. (read_csv has already renamed a header repeated verbatim to
      `data.1`, which does not normalise to the key.) */
  datatype Loaded = Loaded(rows: seq<Row>) | KeyError(column: string) | DuplicateKey(column: string)

  /** The key of the date column after normalisation. */
  const DateKey: string := "data"

  /** Load a file whose header is `header` and whose records are `records`.
      `header` is the column list as read_csv returns it, after it renamed
      repeated names `x`, `x.1`, `x.2`, ...; normalising it must then leave
      exactly one column carrying the date key. The rows kept are the
      records with a valid date, converted, in file order. */
  function LoadAndClean(t: CharTable, header: seq<string>, records: seq<RawRow>): (r: Loaded)
    ensures r.KeyError? <==> DateKey !in NormalizeColumns(t, header)
    ensures r.DuplicateKey? <==> multiset(NormalizeColumns(t, header))[DateKey] >= 2
    ensures !r.Loaded? ==> r.column == DateKey
    ensures r.Loaded? ==> r.rows == ToRows(Filter(records, HasValidDate))
    ensures r.Loaded? ==> |r.rows| <= |records|
  {
    var keys := multiset(NormalizeColumns(t, header))[DateKey];
    if keys == 0 then KeyError(DateKey)
    else if keys >= 2 then DuplicateKey(DateKey)
    else Loaded(CleanDates(records))
  }

  /** The predicate of df['nome'].isin(selected). */
  function NameIn(selected: set<string>): Row -> bool
  {
    (r: Row) => r.nome in selected
  }

  /** filter_data: the rows whose name is among the selected names. */
  function FilterData(rows: seq<Row>, selected: set<string>): (r: seq<Row>)
    ensures |r| <= |rows|
    ensures forall i :: 0 <= i < |r| ==> r[i].nome in selected && r[i] in rows
    ensures forall i :: 0 <= i < |rows| && rows[i].nome in selected ==> rows[i] in r
    ensures forall x :: multiset(r)[x] == if x.nome in selected then multiset(rows)[x] else 0
  {
    var r := Filter(rows, NameIn(selected));
    assert forall i :: 0 <= i < |r| ==> NameIn(selected)(r[i]);
    FilterMultiplicity(rows, NameIn(selected));
    r
  }

  /** Repeated records are all kept: the filter never merges duplicates. */
  lemma FilterDataKeepsDuplicates(x: Row)
    ensures FilterData([x, x], {x.nome}) == [x, x]
  {
    FilterKeepsAll([x, x], NameIn({x.nome}));
  }

  /** Selecting no names leaves no rows. */
  lemma EmptySelectionKeepsNone(rows: seq<Row>)
    ensures FilterData(rows, {}) == []
  {
    FilterNone(rows, NameIn({}));
  }

  /** The kept rows appear in the input in the same order. */
  lemma FilterDataIsSubsequence(rows: seq<Row>, selected: set<string>)
    ensures Subsequence(FilterData(rows, selected), rows)
  {
    FilterIsSubsequence(rows, NameIn(selected));
  }

  /** Filtering again by the same names changes nothing. */
  lemma FilterDataIdempotent(rows: seq<Row>, selected: set<string>)
    ensures FilterData(FilterData(rows, selected), selected) == FilterData(rows, selected)
  {
    FilterIdempotent(rows, NameIn(selected));
  }

  /** Filtering by one selection and then another is filtering by the names
      both selections share. */
  lemma {:induction false} FilterDataIntersect(rows: seq<Row>, a: set<string>, b: set<string>)
    ensures FilterData(FilterData(rows, a), b) == FilterData(rows, a * b)
  {
    if |rows| > 0 {
      FilterDataIntersect(rows[1..], a, b);
      var first := rows[0];
      var rest := Filter(rows[1..], NameIn(a));
      if first.nome in a {
        assert Filter(rows, NameIn(a)) == [first] + rest;
        assert ([first] + rest)[1..] == rest;
      }
    }
  }

  /** Every name appearing in the rows; the sidebar selects all of them by default. */
  function UniqueNames(rows: seq<Row>): (names: set<string>)
    ensures forall i :: 0 <= i < |rows| ==> rows[i].nome in names
    ensures forall n :: n in names ==> exists i :: 0 <= i < |rows| && rows[i].nome == n
  {
    set i | 0 <= i < |rows| :: rows[i].nome
  }

  /** With the default selection every row is kept. */
  lemma DefaultSelectionKeepsAll(rows: seq<Row>)
    ensures FilterData(rows, UniqueNames(rows)) == rows
  {
    var names := UniqueNames(rows);
    assert forall i :: 0 <= i < |rows| ==> NameIn(names)(rows[i]);
    FilterKeepsAll(rows, NameIn(names));
  }
}

=== FILE: dash_estimate.dfy ===
/** The goal-date estimate of the main dashboard (dash.py:137-162): the rows
    are ordered by date, the run rate is the mean of the last fourteen rows,
    and the remaining points divided by that rate, truncated, is the number
    of business days added to the last observed date. */
module DashEstimate {
  import opened Seqs
  import opened Goal
  import opened BusinessDays
  import opened DashData
  import opened DashStats

  predicate SortedByDate(s: seq<Row>)
  {
    forall i, j :: 0 <= i < j < |s| ==> s[i].date <= s[j].date
  }

  /** A row no later than every row of `t` and than `x` is no later than
      any row of a permutation of `t` with `x` added. */
  lemma BoundsPermutation(y: Row, x: Row, t: seq<Row>, rest: seq<Row>)
    requires multiset(rest) == multiset(t) + multiset{x}
    requires y.date <= x.date
    requires forall k :: 0 <= k < |t| ==> y.date <= t[k].date
    ensures forall k :: 0 <= k < |rest| ==> y.date <= rest[k].date
  {
    forall k | 0 <= k < |rest|
      ensures y.date <= rest[k].date
    {
      assert rest[k] in multiset(rest);
      if rest[k] != x {
        assert rest[k] in multiset(t);
        var j :| 0 <= j < |t| && t[j] == rest[k];
      }
    }
  }

  /** A row no later than every row of a sorted list can head it. */
  lemma ConsSorted(y: Row, rest: seq<Row>)
    requires SortedByDate(rest)
    requires forall k :: 0 <= k < |rest| ==> y.date <= rest[k].date
    ensures SortedByDate([y] + rest)
  {
    var r := [y] + rest;
    forall i, j | 0 <= i < j < |r|
      ensures r[i].date <= r[j].date
    {
      assert r[j] == rest[j - 1];
      if i > 0 {
        assert r[i] == rest[i - 1];
      }
    }
  }

  /** Puts `x` into a date-ordered list, ahead of the rows of the same date. */
  function InsertByDate(x: Row, s: seq<Row>): (r: seq<Row>)
    requires SortedByDate(s)
    ensures SortedByDate(r)
    ensures multiset(r) == multiset(s) + multiset{x}
    ensures |r| == |s| + 1
  {
    if |s| == 0 || x.date <= s[0].date then
      ConsSorted(x, s);
      [x] + s
    else
      assert s == [s[0]] + s[1..];
      var rest := InsertByDate(x, s[1..]);
      BoundsPermutation(s[0], x, s[1..], rest);
      ConsSorted(s[0], rest);
      [s[0]] + rest
  }

  /** sort_values(by="data"): the same rows, in ascending date order. */
  function SortByDate(rows: seq<Row>): (r: seq<Row>)
    ensures SortedByDate(r)
    ensures multiset(r) == multiset(rows)
    ensures |r| == |rows|
  {
    if |rows| == 0 then []
    else
      assert rows == [rows[0]] + rows[1..];
      InsertByDate(rows[0], SortByDate(rows[1..]))
  }

  function Min(a: int, b: int): int
  {
    if a <= b then a else b
  }

  /** How many rows tail(14) takes. */
  const RecentRows: nat := 14

  /** tail(14) of the date-ordered rows: fourteen rows, not fourteen days. */
  function Recent(rows: seq<Row>): (r: seq<Row>)
    ensures |r| == Min(RecentRows, |rows|)
  {
    var s := SortByDate(rows);
    s[|s| - Min(RecentRows, |s|)..]
  }

  /** The date-ordered rows that tail(14) leaves out. */
  function Older(rows: seq<Row>): (r: seq<Row>)
  {
    var s := SortByDate(rows);
    s[..|s| - Min(RecentRows, |s|)]
  }

  /** The recent rows and the older rows together are the input rows, and no
      older row is dated after a recent one. */
  lemma RecentAreLatest(rows: seq<Row>)
    ensures multiset(Recent(rows)) + multiset(Older(rows)) == multiset(rows)
    ensures forall i, j :: 0 <= i < |Older(rows)| && 0 <= j < |Recent(rows)| ==>
      Older(rows)[i].date <= Recent(rows)[j].date
  {
    var s := SortByDate(rows);
    var cut := |s| - Min(RecentRows, |s|);
    assert s == s[..cut] + s[cut..];
    forall i, j | 0 <= i < cut && 0 <= j < |s| - cut
      ensures s[..cut][i].date <= s[cut..][j].date
    {
      assert s[..cut][i] == s[i] && s[cut..][j] == s[cut + j];
    }
  }

  /** The daily rate used by the estimate: the mean points of the recent
      rows, missing when there are none. */
  function RecentRate(rows: seq<Row>): (r: Option<real>)
    ensures r.Some? <==> |rows| > 0
  {
    Mean(Points(Recent(rows)))
  }

  /** With fourteen rows or fewer the rate is the mean of all of them. */
  lemma RateOfFewRows(rows: seq<Row>)
    requires |rows| <= RecentRows
    ensures RecentRate(rows) == Mean(Points(rows))
  {
    var s := SortByDate(rows);
    assert Recent(rows) == s;
    PointsPermutation(s, rows);
    SumPermutation(Points(s), Points(rows));
  }

  /** df['data'].max(): the latest date, missing for no rows. */
  function LastDate(rows: seq<Row>): (r: Option<int>)
    ensures r.Some? <==> |rows| > 0
    ensures r.Some? ==> forall i :: 0 <= i < |rows| ==> rows[i].date <= r.value
    ensures r.Some? ==> exists i :: 0 <= i < |rows| && rows[i].date == r.value
  {
    if |rows| == 0 then None
    else
      match LastDate(rows[1..])
      case None => Some(rows[0].date)
      case Some(d) =>
        assert forall i :: 1 <= i < |rows| ==> rows[i] == rows[1..][i - 1];
        if rows[0].date >= d then Some(rows[0].date)
        else
          assert exists i :: 1 <= i < |rows| && rows[i].date == d by {
            var i :| 0 <= i < |rows[1..]| && rows[1..][i].date == d;
            assert rows[i + 1].date == d;
          }
          Some(d)
  }

  /** np.busday_offset(last, int(remaining / rate), roll='forward'). */
  function ProjectDate(last: int, remaining: real, rate: real): (day: int)
    requires remaining > 0.0 && rate > 0.0
    ensures IsBusinessDay(day) && last <= day
  {
    BusdayOffset(last, Trunc(remaining / rate))
  }

  /** The projection lies exactly int(remaining / rate) business days after
      the last date, once that date is rolled onto a business day. */
  lemma ProjectionCountsSteps(last: int, remaining: real, rate: real)
    requires remaining > 0.0 && rate > 0.0
    ensures CountBusinessDays(RollForward(last), ProjectDate(last, remaining, rate)) == Trunc(remaining / rate)
  {
    OffsetCountsBusinessDays(last, Trunc(remaining / rate));
  }

  lemma OffsetMonotone(start: int, j: nat, k: nat)
    requires j <= k
    ensures BusdayOffset(start, j) <= BusdayOffset(start, k)
  {
    if j < k {
      OffsetStrictlyMonotone(start, j, k);
    }
  }

  /** A faster rate, or fewer points to go, never projects a later date. */
  lemma FasterRateIsSooner(last: int, rem1: real, rem2: real, rate1: real, rate2: real)
    requires 0.0 < rem1 <= rem2 && 0.0 < rate2 <= rate1
    ensures ProjectDate(last, rem1, rate1) <= ProjectDate(last, rem2, rate2)
  {
    assert rem1 / rate1 <= rem2 / rate1;
    assert rem2 / rate1 <= rem2 / rate2 by {
      assert rem2 / rate1 * rate1 == rem2 == rem2 / rate2 * rate2;
    }
    OffsetMonotone(last, Trunc(rem1 / rate1), Trunc(rem2 / rate2));
  }

  /** The four outcomes of display_goal_estimation. */
  datatype Estimate = Projected(day: int) | GoalReached | NoRecentProgress | RateTooLow

  /** A date is projected only with points remaining and a positive rate;
      otherwise a met goal is reported first, then a zero rate, and any other
      rate (negative, or missing for no rows) is too low. */
  function EstimateGoal(rows: seq<Row>, meta: real): (e: Estimate)
    ensures var total := Sum(Points(rows)); var rate := RecentRate(rows);
      && (e.Projected? <==> total < meta && rate.Some? && rate.value > 0.0)
      && (e == GoalReached <==> total >= meta)
      && (e == NoRecentProgress <==> total < meta && rate == Some(0.0))
      && (e == RateTooLow <==> total < meta && (rate.None? || rate.value < 0.0))
    ensures e.Projected? ==> IsBusinessDay(e.day)
    ensures e.Projected? ==> forall i :: 0 <= i < |rows| ==> rows[i].date <= e.day
  {
    var total := Sum(Points(rows));
    var remaining := Remaining(total, meta);
    var rate := RecentRate(rows);
    if remaining > 0.0 && rate.Some? && rate.value > 0.0 then
      Projected(ProjectDate(LastDate(rows).value, remaining, rate.value))
    else if remaining <= 0.0 then GoalReached
    else if rate == Some(0.0) then NoRecentProgress
    else RateTooLow
  }

  /** With nothing selected the goal is not met and the rate is missing, so
      the "too low" message is shown. */
  lemma EmptySelectionRateTooLow(meta: real)
    requires meta > 0.0
    ensures EstimateGoal([], meta) == RateTooLow
  {
  }

  /** Twenty business days after Wednesday 10 January 2024 is Wednesday
      7 February; the arguments are parameters so that the recursive offset
      is not unrolled on literals. */
  lemma TwentyStepsFromJanuaryTenth(start: int, k: nat)
    requires start == 19732 && k == 20
    ensures BusdayOffset(start, k) == 19760
  {
    assert Weekday(start) == 2;
    assert RollForward(start) == start;
    assert ClosedFormOffset(start, k) == 19760;
    ClosedFormAgrees(start, k);
  }

  /** Ten rows of 100 points on consecutive days from Monday 1 January 2024
      (day 19723) to Wednesday the 10th (day 19732). */
  predicate IsExampleRows(rows: seq<Row>)
  {
    |rows| == 10 && forall i :: 0 <= i < 10 ==> rows[i] == Row(19723 + i, "ana", 100.0)
  }

  lemma ExampleRowsRate(rows: seq<Row>)
    requires IsExampleRows(rows)
    ensures Sum(Points(rows)) == 1000.0
    ensures RecentRate(rows) == Some(100.0)
  {
    var xs := Points(rows);
    assert forall i :: 0 <= i < |xs| ==> xs[i] == 100.0;
    SumBounds(xs, 100.0, 100.0);
    MeanBounds(xs, 100.0, 100.0);
    RateOfFewRows(rows);
  }

  lemma ExampleRowsLastDate(rows: seq<Row>)
    requires IsExampleRows(rows)
    ensures LastDate(rows) == Some(19732)
  {
    assert rows[9].date == 19732;
    assert forall i :: 0 <= i < |rows| ==> rows[i].date <= 19732;
  }

  /** With 3 000 points as the goal, 2 000 remain at a rate of 100, so twenty
      business days are added to Wednesday 10 January, giving Wednesday
      7 February 2024 (day 19760). */
  lemma EstimateExample(rows: seq<Row>)
    requires IsExampleRows(rows)
    ensures EstimateGoal(rows, 3000.0) == Projected(19760)
  {
    ExampleRowsRate(rows);
    ExampleRowsLastDate(rows);
    assert Remaining(1000.0, 3000.0) == 2000.0;
    assert Trunc(2000.0 / 100.0) == 20;
    TwentyStepsFromJanuaryTenth(19732, 20);
    assert ProjectDate(19732, 2000.0, 100.0) == 19760;
  }
}

=== FILE: dash_stats.dfy ===
/** Statistics of the filtered rows: count, mean, maximum and minimum
    (dash.py:71-78), the 7-row trailing rolling mean of the chart
    (dash.py:93) and the growth scenario (dash.py:171-175). */
module DashStats {
  import opened Seqs
  import opened DashData

  /** The points column of the rows, in row order. */
  function Points(rows: seq<Row>): (xs: seq<real>)
    ensures |xs| == |rows|
    ensures forall i :: 0 <= i < |rows| ==> xs[i] == rows[i].pontos
  {
    seq(|rows|, i requires 0 <= i < |rows| => rows[i].pontos)
  }

  lemma PointsConcat(a: seq<Row>, b: seq<Row>)
    ensures Points(a + b) == Points(a) + Points(b)
  {
  }

  /** Taking the row at `k` out takes its points out of the points column. */
  lemma PointsRemove(b: seq<Row>, k: nat)
    requires k < |b|
    ensures multiset(Points(b)) == multiset(Points(b[..k] + b[k+1..])) + multiset{b[k].pontos}
  {
    var l, r := b[..k], b[k+1..];
    assert b == (l + [b[k]]) + r;
    PointsConcat(l + [b[k]], r);
    PointsConcat(l, [b[k]]);
    PointsConcat(l, r);
    var pl, pr := Points(l), Points(r);
    assert Points([b[k]]) == [b[k].pontos];
    assert Points(b) == (pl + [b[k].pontos]) + pr;
    assert Points(l + r) == pl + pr;
    assert multiset(Points(b)) == multiset(pl) + multiset{b[k].pontos} + multiset(pr);
  }

  /** Reordering rows reorders their points. */
  lemma {:induction false} PointsPermutation(a: seq<Row>, b: seq<Row>)
    requires multiset(a) == multiset(b)
    ensures multiset(Points(a)) == multiset(Points(b))
    decreases |a|
  {
    if |a| > 0 {
      assert a[0] in multiset(b);
      var k :| 0 <= k < |b| && b[k] == a[0];
      MultisetRemoveFirst(a, b, k);
      PointsPermutation(a[1..], b[..k] + b[k+1..]);
      PointsRemove(b, k);
      assert a == [a[0]] + a[1..];
      PointsConcat([a[0]], a[1..]);
      assert Points([a[0]]) == [a[0].pontos];
      assert multiset(Points(a)) == multiset{a[0].pontos} + multiset(Points(a[1..]));
    } else {
      assert |b| == |multiset(b)| == 0;
      assert b == [];
      assert Points(a) == [] == Points(b);
    }
  }

  /** What calculate_basic_stats reports, the standard deviation aside;
      the statistics of no rows are missing, as pandas gives NaN. */
  datatype Stats = Stats(count: nat, mean: Option<real>, max: Option<real>, min: Option<real>)

  function BasicStats(rows: seq<Row>): (s: Stats)
    ensures s.count == |rows|
    ensures s.mean.Some? <==> |rows| > 0
    ensures s.max.Some? <==> |rows| > 0
    ensures s.min.Some? <==> |rows| > 0
    ensures s.max.Some? ==> s.max.value in Points(rows)
    ensures s.max.Some? ==> forall i :: 0 <= i < |rows| ==> rows[i].pontos <= s.max.value
    ensures s.min.Some? ==> s.min.value in Points(rows)
    ensures s.min.Some? ==> forall i :: 0 <= i < |rows| ==> s.min.value <= rows[i].pontos
    ensures s.mean.Some? ==> s.min.value <= s.mean.value <= s.max.value
  {
    var xs := Points(rows);
    if |xs| == 0 then Stats(0, None, None, None)
    else
      MeanBounds(xs, MinOf(xs), MaxOf(xs));
      Stats(|rows|, Mean(xs), Some(MaxOf(xs)), Some(MinOf(xs)))
  }

  /** First index of the trailing window of row `i`: at most seven rows,
      fewer at the start (min_periods=1). */
  function WindowStart(i: nat): nat
  {
    if i >= 6 then i - 6 else 0
  }

  /** The trailing window of row `i`. */
  function Window(xs: seq<real>, i: nat): (w: seq<real>)
    requires i < |xs|
    ensures 1 <= |w| <= 7
  {
    xs[WindowStart(i)..i + 1]
  }

  /** rolling(window=7, min_periods=1).mean(): row i gets the mean of rows
      i-6 .. i, or of rows 0 .. i near the start. */
  function Rolling(xs: seq<real>): (r: seq<real>)
    ensures |r| == |xs|
  {
    seq(|xs|, i requires 0 <= i < |xs| => Sum(Window(xs, i)) / |Window(xs, i)| as real)
  }

  /** Each smoothed value lies between the least and the greatest points of
      its window, and the first value is the first point itself. */
  lemma RollingWithinWindow(xs: seq<real>, i: nat)
    requires i < |xs|
    ensures MinOf(Window(xs, i)) <= Rolling(xs)[i] <= MaxOf(Window(xs, i))
    ensures i == 0 ==> Rolling(xs)[i] == xs[0]
  {
    var w := Window(xs, i);
    MeanBounds(w, MinOf(w), MaxOf(w));
    assert Rolling(xs)[i] == Mean(w).value;
    if i == 0 {
      assert w == [xs[0]];
    }
  }

  /** Points that are all equal are left unchanged by the smoothing. */
  lemma RollingConstant(xs: seq<real>, c: real)
    requires forall i :: 0 <= i < |xs| ==> xs[i] == c
    ensures Rolling(xs) == xs
  {
    forall i | 0 <= i < |xs|
      ensures Rolling(xs)[i] == xs[i]
    {
      var w := Window(xs, i);
      MeanBounds(w, c, c);
      assert Rolling(xs)[i] == Mean(w).value;
    }
  }

  lemma SumSnoc(xs: seq<real>, a: nat, b: nat)
    requires a <= b < |xs|
    ensures Sum(xs[a..b + 1]) == Sum(xs[a..b]) + xs[b]
  {
    assert xs[a..b + 1] == xs[a..b] + [xs[b]];
    SumConcat(xs[a..b], [xs[b]]);
  }

  lemma SumDropFirst(xs: seq<real>, a: nat, b: nat)
    requires a < b <= |xs|
    ensures Sum(xs[a + 1..b]) == Sum(xs[a..b]) - xs[a]
  {
    assert xs[a..b][1..] == xs[a + 1..b];
  }

  /** The rolling mean in one pass, keeping a running sum of the window:
      add the new point, and drop the point that leaves the window. */
  method RollingMeans(xs: seq<real>) returns (out: seq<real>)
    ensures out == Rolling(xs)
  {
    out := [];
    var sum := 0.0;
    var i := 0;
    while i < |xs|
      invariant 0 <= i <= |xs|
      invariant |out| == i
      invariant forall j :: 0 <= j < i ==> out[j] == Rolling(xs)[j]
      invariant sum == Sum(xs[WindowStart(i)..i])
    {
      SumSnoc(xs, WindowStart(i), i);
      sum := sum + xs[i];
      out := out + [sum / (i + 1 - WindowStart(i)) as real];
      if i >= 6 {
        SumDropFirst(xs, i - 6, i + 1);
        sum := sum - xs[i - 6];
      }
      i := i + 1;
    }
  }

  /** calculate_scenarios: the mean of the points raised by a growth rate in
      per cent; missing when there are no rows. */
  function Scenario(rows: seq<Row>, growth: real): (r: Option<real>)
    ensures r.Some? <==> |rows| > 0
    ensures r.Some? && growth == 0.0 ==> r == Mean(Points(rows))
  {
    match Mean(Points(rows))
    case Some(m) => Some(m * (1.0 + growth / 100.0))
    case None => None
  }

  /** With a non-negative mean, a higher growth rate never projects fewer
      points, and a non-negative rate never projects below the mean. */
  lemma ScenarioMonotone(rows: seq<Row>, g1: real, g2: real)
    requires |rows| > 0 && Mean(Points(rows)).value >= 0.0
    requires g1 <= g2
    ensures Scenario(rows, g1).value <= Scenario(rows, g2).value
    ensures g1 >= 0.0 ==> Mean(Points(rows)).value <= Scenario(rows, g1).value
  {
    var m := Mean(Points(rows)).value;
    assert m * (1.0 + g1 / 100.0) == m + m * g1 / 100.0;
    assert m * (1.0 + g2 / 100.0) == m + m * g2 / 100.0;
    assert m * g1 <= m * g2;
  }
}

=== FILE: dashboard.dfy ===
/** The main dashboard once logged in (dash.py:256-294): load the rows, stop
    when none are left, filter by the selected names, then compute the goal
    panel, the statistics, the smoothed series, the goal-date estimate, the
    alert and the growth scenario over the filtered rows. */
module Dashboard {
  import opened Seqs
  import opened ColumnNames
  import opened Goal
  import opened DashData
  import opened DashStats
  import opened DashEstimate

  /** What the page ends up showing. Streamlit stops the script at the
      first exception, so each failure is a screen of its own:
      - `LoadFailed`: no header normalises to the date key (KeyError);
      - `AssembleFailed`: two differently written headers do, and
        to_datetime cannot assemble the resulting table of columns
        (ValueError);
      - `ProgressRejected`: the goal panel's figures are on screen but
        st.progress refuses the bar value, so nothing after it is drawn. */
  datatype Screen =
    | LoadFailed(column: string)
    | AssembleFailed(column: string)
    | NoData
    | ProgressRejected(rows: seq<Row>, progress: MetaProgress)
    | Panels(rows: seq<Row>, progress: MetaProgress, stats: Stats, smoothed: seq<real>,
             estimate: Estimate, status: GoalStatus, scenario: Option<real>)

  /** The dashboard for a file with `header` and `records`, the names chosen
      in the sidebar and the growth rate of the slider. */
  function ShowDashboard(t: CharTable, header: seq<string>, records: seq<RawRow>,
                         selected: set<string>, growth: real): (s: Screen)
    ensures s.LoadFailed? <==> DateKey !in NormalizeColumns(t, header)
    ensures s.AssembleFailed? <==> multiset(NormalizeColumns(t, header))[DateKey] >= 2
    ensures s.Panels? || s.ProgressRejected? ==>
      s.rows == FilterData(ToRows(Filter(records, HasValidDate)), selected) && |s.rows| <= |records|
    ensures s.Panels? ==> Sum(Points(s.rows)) >= 0.0
    ensures s.Panels? ==> s == PanelsOf(s.rows, growth)
    ensures s.ProgressRejected? ==> s.progress == MetaProgressOf(Points(s.rows), DashGoal)
  {
    Present(LoadAndClean(t, header, records), selected, growth)
  }

  /** What the page shows for the result of loading: an error, the no-data
      message, the goal panel whose bar Streamlit refuses (a negative total
      of the selected rows), or every panel over the selected rows. */
  function Present(loaded: Loaded, selected: set<string>, growth: real): (s: Screen)
    ensures s.LoadFailed? <==> loaded.KeyError?
    ensures s.AssembleFailed? <==> loaded.DuplicateKey?
    ensures s == NoData <==> loaded == Loaded([])
    ensures s.ProgressRejected? <==>
      loaded.Loaded? && |loaded.rows| > 0 && Sum(Points(FilterData(loaded.rows, selected))) < 0.0
    ensures s.Panels? || s.ProgressRejected? ==> s.rows == FilterData(loaded.rows, selected)
    ensures s.ProgressRejected? ==> !FractionAccepts(s.progress.bar)
    ensures s.Panels? ==> FractionAccepts(s.progress.bar) && Sum(Points(s.rows)) >= 0.0
    ensures s.Panels? ==> |s.smoothed| == |s.rows| && s.stats.count == |s.rows|
    ensures s.Panels? ==> s == PanelsOf(s.rows, growth)
    ensures s.ProgressRejected? ==> s.progress == MetaProgressOf(Points(s.rows), DashGoal)
  {
    match loaded
    case KeyError(c) => LoadFailed(c)
    case DuplicateKey(c) => AssembleFailed(c)
    case Loaded(rows) =>
      if |rows| == 0 then NoData
      else
        var filtered := FilterData(rows, selected);
        var progress := MetaProgressOf(Points(filtered), DashGoal);
        DashBarAccepted(Sum(Points(filtered)));
        if !FractionAccepts(progress.bar) then ProgressRejected(filtered, progress)
        else PanelsOf(filtered, growth)
  }

  /** The panels computed over the filtered rows. */
  function PanelsOf(filtered: seq<Row>, growth: real): (s: Screen)
    ensures s.Panels? && s.rows == filtered
    ensures s.progress == MetaProgressOf(Points(filtered), DashGoal)
    ensures s.stats == BasicStats(filtered) && s.smoothed == Rolling(Points(filtered))
    ensures s.estimate == EstimateGoal(filtered, DashGoal)
    ensures s.status == CheckGoalStatus(Sum(Points(filtered)), DashGoal)
    ensures s.scenario == Scenario(filtered, growth)
  {
    var points := Points(filtered);
    Panels(filtered, MetaProgressOf(points, DashGoal), BasicStats(filtered), Rolling(points),
           EstimateGoal(filtered, DashGoal), CheckGoalStatus(Sum(points), DashGoal),
           Scenario(filtered, growth))
  }

  /** The three places that announce a met goal agree: the goal panel's
      success message, the estimate's "already reached" and the alert. */
  lemma GoalMessagesAgree(rows: seq<Row>, selected: set<string>, growth: real)
    requires |rows| > 0
    ensures var s := Present(Loaded(rows), selected, growth);
      s.Panels? ==>
        (s.progress.celebrate <==> s.status == Reached) && (s.estimate == GoalReached <==> s.status == Reached)
  {
  }

  /** A selected row with negative points on its own stops the page at the
      progress bar. */
  lemma NegativeTotalStops(x: Row, growth: real)
    requires x.pontos < 0.0
    ensures Present(Loaded([x]), {x.nome}, growth).ProgressRejected?
  {
    FilterKeepsAll([x], NameIn({x.nome}));
    assert Points([x]) == [x.pontos];
  }

  /** With the sidebar's default selection, every loaded row is shown. */
  lemma DefaultSelectionShowsAll(rows: seq<Row>, growth: real)
    requires |rows| > 0
    ensures Present(Loaded(rows), UniqueNames(rows), growth).rows == rows
  {
    DefaultSelectionKeepsAll(rows);
  }

  /** A selection of names that match no row leaves nothing to project from:
      the goal is not met and the estimate reports a rate too low. */
  lemma EmptySelectionTooLow(rows: seq<Row>, growth: real)
    requires |rows| > 0
    ensures Present(Loaded(rows), {}, growth).estimate == RateTooLow
    ensures Present(Loaded(rows), {}, growth).stats.mean.None?
  {
    EmptySelectionKeepsNone(rows);
    assert Present(Loaded(rows), {}, growth) == PanelsOf([], growth);
    EmptySelectionRateTooLow(DashGoal);
  }
}

=== FILE: desempenho.dfy ===
/** The performance page (desempenho.py:19-70): checks that the sheet has
    data and the two required columns, coerces the points column to numbers
    and drops what does not convert, then reports the total against a goal
    of 100 000 points, the truncated progress value and the daily series. */
module Desempenho {
  import opened Seqs
  import opened Goal
  import opened Daily

  /** A cell of the points column as read from the spreadsheet. */
  datatype Cell = Number(x: real) | Text(t: string) | Blank

  /** pd.to_numeric(..., errors='coerce') on one cell. How text is read as a
      number is the parameter `parse`; a blank cell is missing. */
  function ToNumeric(parse: string -> Option<real>, c: Cell): (r: Option<real>)
    ensures c.Number? ==> r == Some(c.x)
    ensures c.Blank? ==> r.None?
  {
    match c
    case Number(x) => Some(x)
    case Text(t) => parse(t)
    case Blank => None
  }

  /** A sheet row: its date (a day number, or missing) and its points cell. */
  datatype SheetRow = SheetRow(data: Option<int>, pontos: Cell)

  /** The row with its points as a number, or missing when they do not convert. */
  function Coerce(parse: string -> Option<real>): SheetRow -> Option<Sample>
  {
    (r: SheetRow) =>
      match ToNumeric(parse, r.pontos)
      case Some(x) => Some(Sample(r.data, x))
      case None => None
  }

  /** The header names and the rows of the sheet. */
  datatype Sheet = Sheet(columns: set<string>, rows: seq<SheetRow>)

  const PointsColumn: string := "número de pontos"
  const DateColumn: string := "data"

  /** DataFrame.empty: no rows, or no columns. */
  predicate IsEmpty(sheet: Sheet)
  {
    |sheet.rows| == 0 || |sheet.columns| == 0
  }

  /** What the page shows: nothing past an error message, the figures up to
      the progress bar when st.progress rejects the bar value, or the whole
      report with the daily series. */
  datatype Page =
    | NoData
    | MissingColumns
    | BarRejected(nulls: nat, samples: seq<Sample>, total: real, missing: real,
                  progress: real, bar: int)
    | Report(nulls: nat, samples: seq<Sample>, total: real, missing: real,
             progress: real, bar: int, daily: seq<DailyTotal>)
  {
    /** The figures were computed: the page got past both checks. */
    predicate Computed()
    {
      BarRejected? || Report?
    }
  }

  /** show_desempenho: stop on an empty sheet, then on a missing column;
      otherwise count and drop the points that do not convert and compute
      the figures from the rest, stopping at the progress bar when its value
      lies outside 0..100. */
  function ShowDesempenho(sheet: Sheet, parse: string -> Option<real>): (p: Page)
    ensures p == NoData <==> IsEmpty(sheet)
    ensures p == MissingColumns <==>
      !IsEmpty(sheet) && (PointsColumn !in sheet.columns || DateColumn !in sheet.columns)
    ensures p.Computed() ==> p.nulls + |p.samples| == |sheet.rows|
    ensures p.Computed() ==> p.total == Sum(PointsOf(p.samples))
    ensures p.Computed() ==> p.missing >= 0.0 && (p.missing == 0.0 <==> p.total >= SheetGoal)
    ensures p.Computed() ==> p.progress * SheetGoal == p.total * 100.0
    ensures p.Computed() && p.total >= 0.0 ==> p.bar >= 0 && p.bar as real <= p.progress < p.bar as real + 1.0
    ensures p.Computed() ==> (p.Report? <==> -1000.0 < p.total < 101000.0)
    ensures p.Report? ==> ProgressAccepts(p.bar)
    ensures p.BarRejected? ==> !ProgressAccepts(p.bar)
    ensures p.Computed() ==> p.nulls == Rejected(sheet.rows, Coerce(parse))
    ensures p.Computed() ==> p.total + p.missing == Max(SheetGoal, p.total)
    ensures p.Report? ==> StrictlyAscending(p.daily) && Dates(p.daily) == PresentDates(p.samples)
    ensures p.Report? ==> forall d :: Lookup(p.daily, d) == SumOn(p.samples, d)
    ensures p.Report? ==> p.daily == DailySums(p.samples)
  {
    if IsEmpty(sheet) then NoData
    else if PointsColumn !in sheet.columns || DateColumn !in sheet.columns then MissingColumns
    else
      var samples := FilterMap(sheet.rows, Coerce(parse));
      FilterMapCount(sheet.rows, Coerce(parse));
      var nulls := Rejected(sheet.rows, Coerce(parse));
      var total := Sum(PointsOf(samples));
      var progress := Percent(total, SheetGoal);
      var bar := Trunc(progress);
      SheetBarAccepted(total);
      if !ProgressAccepts(bar) then
        BarRejected(nulls, samples, total, Remaining(total, SheetGoal), progress, bar)
      else
        Report(nulls, samples, total, Remaining(total, SheetGoal), progress, bar, DailySums(samples))
  }

  /** The rows kept are exactly those whose points convert, in their
      original order, and each keeps its date. */
  lemma CoercionKeepsNumericRows(sheet: Sheet, parse: string -> Option<real>)
    requires ShowDesempenho(sheet, parse).Computed()
    ensures forall i :: 0 <= i < |Filter(sheet.rows, Accepted(Coerce(parse)))| ==>
      Coerce(parse)(Filter(sheet.rows, Accepted(Coerce(parse)))[i]).Some?
    ensures ShowDesempenho(sheet, parse).samples
      == Values(Filter(sheet.rows, Accepted(Coerce(parse))), Coerce(parse))
    ensures forall i :: 0 <= i < |sheet.rows| && ToNumeric(parse, sheet.rows[i].pontos).Some? ==>
      Sample(sheet.rows[i].data, ToNumeric(parse, sheet.rows[i].pontos).value)
        in ShowDesempenho(sheet, parse).samples
  {
    FilterMapKeepsAccepted(sheet.rows, Coerce(parse));
    forall i | 0 <= i < |sheet.rows| && ToNumeric(parse, sheet.rows[i].pontos).Some?
      ensures Sample(sheet.rows[i].data, ToNumeric(parse, sheet.rows[i].pontos).value)
        in ShowDesempenho(sheet, parse).samples
    {
      assert Coerce(parse)(sheet.rows[i]).Some?;
    }
  }

  /** The daily series and the rows without a date together account for the
      whole total; when every row has a date, the series alone does. */
  lemma DailyAccountsForTotal(sheet: Sheet, parse: string -> Option<real>)
    requires ShowDesempenho(sheet, parse).Report?
    ensures var p := ShowDesempenho(sheet, parse);
      TotalOf(p.daily) + UndatedTotal(p.samples) == p.total
  {
    var p := ShowDesempenho(sheet, parse);
    DatedPlusUndated(p.samples);
  }

  /** The example sheet's rows: 10 points, an unreadable cell, a blank and
      20 points, all on day `d`. */
  predicate IsExampleRows(rows: seq<SheetRow>, d: int)
  {
    && |rows| == 4
    && rows[0] == SheetRow(Some(d), Number(10.0))
    && rows[1] == SheetRow(Some(d), Text("abc"))
    && rows[2] == SheetRow(Some(d), Blank)
    && rows[3] == SheetRow(Some(d), Number(20.0))
  }

  /** The two numeric rows of the example are kept and the other two dropped. */
  lemma ExampleSamples(rows: seq<SheetRow>, d: int, parse: string -> Option<real>)
    requires IsExampleRows(rows, d) && parse("abc") == None
    ensures FilterMap(rows, Coerce(parse)) == [Sample(Some(d), 10.0), Sample(Some(d), 20.0)]
    ensures Rejected(rows, Coerce(parse)) == 2
  {
    var f := Coerce(parse);
    assert f(rows[0]) == Some(Sample(Some(d), 10.0));
    assert f(rows[1]) == None;
    assert f(rows[2]) == None;
    assert f(rows[3]) == Some(Sample(Some(d), 20.0));
    assert rows[3..][1..] == [];
    assert FilterMap(rows[3..], f) == [Sample(Some(d), 20.0)];
    assert rows[2..][1..] == rows[3..];
    assert FilterMap(rows[2..], f) == [Sample(Some(d), 20.0)];
    assert rows[1..][1..] == rows[2..];
    assert FilterMap(rows[1..], f) == [Sample(Some(d), 20.0)];
    FilterMapCount(rows, f);
  }

  /** Two samples of one day form one daily entry with their sum. */
  lemma ExampleDaily(samples: seq<Sample>, d: int)
    requires samples == [Sample(Some(d), 10.0), Sample(Some(d), 20.0)]
    ensures Sum(PointsOf(samples)) == 30.0
    ensures DailySums(samples) == [DailyTotal(d, 30.0)]
  {
    assert PointsOf(samples) == [10.0, 20.0];
    assert Sum([10.0, 20.0]) == 30.0;
    assert samples[1..] == [Sample(Some(d), 20.0)];
    assert samples[1..][1..] == [];
    assert DailySums(samples[1..]) == [DailyTotal(d, 20.0)];
  }

  /** The example sheet: two nulls are reported and dropped, the total is
      30, 99 970 points are missing, and the series has the one entry of 30. */
  lemma ReportExample(sheet: Sheet, d: int, parse: string -> Option<real>)
    requires sheet.columns == {PointsColumn, DateColumn} && IsExampleRows(sheet.rows, d)
    requires parse("abc") == None
    ensures var p := ShowDesempenho(sheet, parse);
      p.Report? && p.nulls == 2 && p.total == 30.0 && p.missing == 99970.0
      && p.daily == [DailyTotal(d, 30.0)]
  {
    ExampleSamples(sheet.rows, d, parse);
    ExampleDaily(FilterMap(sheet.rows, Coerce(parse)), d);
    assert !IsEmpty(sheet);
  }

  /** A sheet of 150 000 points on one day: the figures are computed, but the
      bar value 150 is rejected, so the page stops before the daily series. */
  lemma OverGoalStops(sheet: Sheet, d: int, parse: string -> Option<real>)
    requires sheet.columns == {PointsColumn, DateColumn}
    requires sheet.rows == [SheetRow(Some(d), Number(150000.0))]
    ensures var p := ShowDesempenho(sheet, parse);
      p.BarRejected? && p.nulls == 0 && p.total == 150000.0 && p.missing == 0.0 && p.bar == 150
  {
    var f := Coerce(parse);
    assert sheet.rows[1..] == [];
    assert FilterMap(sheet.rows, f) == [Sample(Some(d), 150000.0)];
    var samples := [Sample(Some(d), 150000.0)];
    assert PointsOf(samples) == [150000.0];
    assert Sum([150000.0]) == 150000.0;
    assert !IsEmpty(sheet);
  }
}

=== FILE: goal.dfy ===
/** Progress toward a points goal: the remaining points, the percentage
    reached, the progress-bar value and the reached / nearly-there alert.
    The goal is a parameter; the two dashboards use the constants below. */
module Goal {
  import opened Seqs

  /** The goal of the main dashboard (dash.py). */
  const DashGoal: real := 101457.0

  /** The goal of the performance page (desempenho.py). */
  const SheetGoal: real := 100000.0

  function Max(a: real, b: real): real
  {
    if a >= b then a else b
  }

  /** Points still missing: the gap to the goal, or zero once it is met. */
  function Remaining(total: real, meta: real): (r: real)
    ensures r >= 0.0
    ensures r == 0.0 <==> total >= meta
    ensures total + r == Max(meta, total)
  {
    if meta > total then meta - total else 0.0
  }

  /** Percentage of the goal reached; zero when the goal is not positive. */
  function Percent(total: real, meta: real): (r: real)
    ensures meta > 0.0 ==> (r >= 100.0 <==> total >= meta)
    ensures meta > 0.0 ==> r * meta == total * 100.0
    ensures meta > 0.0 && total >= 0.0 ==> r >= 0.0
    ensures meta <= 0.0 ==> r == 0.0
  {
    if meta > 0.0 then total / meta * 100.0 else 0.0
  }

  /** The fraction shown by the main dashboard's progress bar: the percentage
      over a hundred, capped at a full bar. */
  function BarFraction(percent: real): (r: real)
    ensures r <= 1.0
    ensures percent >= 0.0 ==> r >= 0.0
    ensures r == 1.0 <==> percent >= 100.0
    ensures percent <= 100.0 ==> r * 100.0 == percent
  {
    if percent <= 100.0 then percent / 100.0 else 1.0
  }

  /** st.progress with a float argument: it accepts 0.0 through 1.0 and
      raises for any other value. */
  predicate FractionAccepts(x: real)
  {
    0.0 <= x <= 1.0
  }

  /** The main dashboard's bar value is accepted exactly when the total is
      not negative: the cap keeps it at most 1, but nothing keeps it at
      least 0. */
  lemma DashBarAccepted(total: real)
    ensures FractionAccepts(BarFraction(Percent(total, DashGoal))) <==> total >= 0.0
  {
  }

  /** With a positive goal, the bar is full exactly when nothing remains. */
  lemma FullBarMeansGoalMet(total: real, meta: real)
    requires meta > 0.0
    ensures BarFraction(Percent(total, meta)) == 1.0 <==> Remaining(total, meta) == 0.0
  {
  }

  /** Python's int() on a float: truncation toward zero. */
  function Trunc(x: real): (r: int)
    ensures x >= 0.0 ==> 0 <= r && r as real <= x < r as real + 1.0
    ensures x < 0.0 ==> r <= 0 && r as real - 1.0 < x <= r as real
  {
    if x >= 0.0 then x.Floor else -((-x).Floor)
  }

  /** The figures of the main dashboard's goal panel for a list of points. */
  datatype MetaProgress = MetaProgress(
    total: real, remaining: real, percent: real, bar: real, celebrate: bool)

  /** The goal panel: the total, what remains, the percentage, the capped bar,
      and whether the success message is shown (nothing remains). */
  function MetaProgressOf(points: seq<real>, meta: real): (m: MetaProgress)
    ensures m.total == Sum(points)
    ensures m.remaining >= 0.0 && m.bar <= 1.0
    ensures m.celebrate <==> Sum(points) >= meta
    ensures meta > 0.0 ==> (m.bar == 1.0 <==> m.celebrate)
    ensures m.total + m.remaining == Max(meta, m.total)
    ensures meta > 0.0 ==> m.percent * meta == m.total * 100.0
    ensures meta <= 0.0 ==> m.percent == 0.0
    ensures m.bar == BarFraction(m.percent)
  {
    var total := Sum(points);
    var remaining := Remaining(total, meta);
    var percent := Percent(total, meta);
    MetaProgress(total, remaining, percent, BarFraction(percent), remaining <= 0.0)
  }

  /** The alert issued after the charts. */
  datatype GoalStatus = Reached | Near | Silent

  /** The goal counts as reached at or above it, as nearly reached from
      ninety per cent of it, and otherwise there is no alert. */
  function CheckGoalStatus(total: real, meta: real): (s: GoalStatus)
    ensures s == Reached <==> total >= meta
    ensures s == Near <==> 0.9 * meta <= total < meta
    ensures s == Silent <==> total < meta && total < 0.9 * meta
  {
    if total >= meta then Reached
    else if total >= 0.9 * meta then Near
    else Silent
  }

  /** A larger total never moves the alert backward: Silent, then Near,
      then Reached. */
  lemma StatusMonotone(t1: real, t2: real, meta: real)
    requires t1 <= t2
    ensures CheckGoalStatus(t1, meta) == Reached ==> CheckGoalStatus(t2, meta) == Reached
    ensures CheckGoalStatus(t1, meta) == Near ==> CheckGoalStatus(t2, meta) != Silent
  {
  }

  /** The alert agrees with the goal panel: Reached exactly when the panel
      shows nothing remaining. */
  lemma StatusAgreesWithPanel(points: seq<real>, meta: real)
    ensures CheckGoalStatus(Sum(points), meta) == Reached <==> MetaProgressOf(points, meta).remaining == 0.0
  {
  }

  /** The performance page's bar value: the percentage truncated to a whole
      number, with no cap. */
  function SheetBarValue(total: real): (r: int)
    ensures total >= 0.0 ==> r >= 0 && r as real <= total / 1000.0 < r as real + 1.0
    ensures total >= SheetGoal ==> r >= 100
  {
    Trunc(Percent(total, SheetGoal))
  }

  /** st.progress with an int argument: it accepts 0 through 100 and raises
      for any other value. */
  predicate ProgressAccepts(v: int)
  {
    0 <= v <= 100
  }

  /** The performance page's bar value is accepted exactly for totals above
      -1 000 and below 101 000 points. */
  lemma SheetBarAccepted(total: real)
    ensures ProgressAccepts(SheetBarValue(total)) <==> -1000.0 < total < 101000.0
  {
    var x := Percent(total, SheetGoal);
    assert x == total / 1000.0;
    var r := Trunc(x);
    if total >= 101000.0 {
      assert x >= 101.0;
    } else if total <= -1000.0 {
      assert x <= -1.0;
    } else if total >= 0.0 {
      assert x < 101.0;
    } else {
      assert -1.0 < x < 0.0;
    }
  }

  /** 150 000 points on the performance page give a bar value of 150, which
      st.progress rejects, while the main dashboard's bar at the same total
      is capped at 1. */
  lemma BarExamples()
    ensures SheetBarValue(150000.0) == 150 && !ProgressAccepts(150)
    ensures SheetBarValue(99999.0) == 99
    ensures BarFraction(Percent(150000.0, DashGoal)) == 1.0
    ensures Remaining(90000.0, SheetGoal) == 10000.0
    ensures CheckGoalStatus(91312.0, DashGoal) == Near
    ensures CheckGoalStatus(91311.0, DashGoal) == Silent
  {
  }
}

=== FILE: seqs.dfy ===
/** Sequence helpers shared by the loaders and the aggregators: an optional
    value (the model's stand-in for a pandas missing value), order-preserving
    filters, filter-and-convert, and sums, means and extremes over exact reals. */
module Seqs {

  /** A value that may be absent; `None` plays the part of NaN / NaT. */
  datatype Option<+T> = None | Some(value: T)

  /** `a` occurs in `b` in order, possibly with gaps. */
  predicate Subsequence<T(==)>(a: seq<T>, b: seq<T>)
    decreases |b|
  {
    |a| == 0 || (|b| > 0 && ((a[0] == b[0] && Subsequence(a[1..], b[1..])) || Subsequence(a, b[1..])))
  }

  /** The elements of `s` that satisfy `p`, in their original order. */
  function Filter<T>(s: seq<T>, p: T -> bool): (r: seq<T>)
    ensures |r| <= |s|
    ensures forall i :: 0 <= i < |r| ==> p(r[i])
    ensures forall i :: 0 <= i < |r| ==> r[i] in s
    ensures forall i :: 0 <= i < |s| && p(s[i]) ==> s[i] in r
    ensures multiset(r) <= multiset(s)
  {
    if |s| == 0 then []
    else
      assert s == [s[0]] + s[1..];
      if p(s[0]) then [s[0]] + Filter(s[1..], p) else Filter(s[1..], p)
  }

  /** Every element that passes is kept as often as it occurs, and no
      other element is kept. */
  lemma {:induction false} FilterMultiplicity<T>(s: seq<T>, p: T -> bool)
    ensures forall x :: multiset(Filter(s, p))[x] == if p(x) then multiset(s)[x] else 0
  {
    if |s| > 0 {
      FilterMultiplicity(s[1..], p);
      assert s == [s[0]] + s[1..];
      assert multiset(s) == multiset{s[0]} + multiset(s[1..]);
      if p(s[0]) {
        assert Filter(s, p) == [s[0]] + Filter(s[1..], p);
      } else {
        assert Filter(s, p) == Filter(s[1..], p);
      }
    }
  }

  /** Nothing is kept when no element passes. */
  lemma {:induction false} FilterNone<T>(s: seq<T>, p: T -> bool)
    requires forall i :: 0 <= i < |s| ==> !p(s[i])
    ensures Filter(s, p) == []
  {
    if |s| > 0 {
      FilterNone(s[1..], p);
    }
  }

  /** Filtering distributes over concatenation: the rows of the first part
      come first, so relative order is kept. */
  lemma {:induction false} FilterConcat<T>(a: seq<T>, b: seq<T>, p: T -> bool)
    ensures Filter(a + b, p) == Filter(a, p) + Filter(b, p)
  {
    if |a| == 0 {
      assert a + b == b;
    } else {
      assert (a + b)[0] == a[0];
      assert (a + b)[1..] == a[1..] + b;
      FilterConcat(a[1..], b, p);
    }
  }

  /** The filtered rows embed in the input in order. */
  lemma {:induction false} FilterIsSubsequence<T>(s: seq<T>, p: T -> bool)
    ensures Subsequence(Filter(s, p), s)
  {
    if |s| > 0 {
      FilterIsSubsequence(s[1..], p);
      if !p(s[0]) {
        var r := Filter(s[1..], p);
        assert r == Filter(s, p);
      }
    }
  }

  /** A filter that every element passes changes nothing. */
  lemma {:induction false} FilterKeepsAll<T>(s: seq<T>, p: T -> bool)
    requires forall i :: 0 <= i < |s| ==> p(s[i])
    ensures Filter(s, p) == s
  {
    if |s| > 0 {
      FilterKeepsAll(s[1..], p);
      assert [s[0]] + s[1..] == s;
    }
  }

  /** Filtering twice by the same predicate is filtering once. */
  lemma FilterIdempotent<T>(s: seq<T>, p: T -> bool)
    ensures Filter(Filter(s, p), p) == Filter(s, p)
  {
    FilterKeepsAll(Filter(s, p), p);
  }

  /** Converts every element with `f` and drops the ones it rejects,
      keeping the order of the survivors. */
  function FilterMap<A(==), B(==)>(s: seq<A>, f: A -> Option<B>): (r: seq<B>)
    ensures |r| <= |s|
    ensures forall j :: 0 <= j < |r| ==> exists i :: 0 <= i < |s| && f(s[i]) == Some(r[j])
    ensures forall i :: 0 <= i < |s| && f(s[i]).Some? ==> f(s[i]).value in r
  {
    if |s| == 0 then []
    else
      var rest := FilterMap(s[1..], f);
      match f(s[0])
      case Some(y) => [y] + rest
      case None => rest
  }

  /** How many elements `f` rejects. */
  function Rejected<A, B>(s: seq<A>, f: A -> Option<B>): nat
  {
    if |s| == 0 then 0 else (if f(s[0]).None? then 1 else 0) + Rejected(s[1..], f)
  }

  /** Every element is either kept or counted as rejected. */
  lemma {:induction false} FilterMapCount<A, B>(s: seq<A>, f: A -> Option<B>)
    ensures |FilterMap(s, f)| + Rejected(s, f) == |s|
  {
    if |s| > 0 {
      FilterMapCount(s[1..], f);
    }
  }

  /** The elements `f` accepts. */
  function Accepted<A, B>(f: A -> Option<B>): A -> bool
  {
    (x: A) => f(x).Some?
  }

  /** The converted values of elements that `f` all accepts. */
  function Values<A, B>(s: seq<A>, f: A -> Option<B>): (r: seq<B>)
    requires forall i :: 0 <= i < |s| ==> f(s[i]).Some?
    ensures |r| == |s|
  {
    seq(|s|, i requires 0 <= i < |s| => f(s[i]).value)
  }

  lemma ValuesCons<A, B>(x: A, t: seq<A>, f: A -> Option<B>)
    requires f(x).Some?
    requires forall i :: 0 <= i < |t| ==> f(t[i]).Some?
    ensures forall i :: 0 <= i < |[x] + t| ==> f(([x] + t)[i]).Some?
    ensures Values([x] + t, f) == [f(x).value] + Values(t, f)
  {
    var r := [x] + t;
    assert forall i :: 0 <= i < |t| ==> r[i + 1] == t[i];
  }

  /** Filter-and-convert keeps exactly the accepted elements, in their
      original order, and converts each of them. */
  lemma {:induction false} FilterMapKeepsAccepted<A, B>(s: seq<A>, f: A -> Option<B>)
    ensures forall i :: 0 <= i < |Filter(s, Accepted(f))| ==> f(Filter(s, Accepted(f))[i]).Some?
    ensures FilterMap(s, f) == Values(Filter(s, Accepted(f)), f)
  {
    var kept := Filter(s, Accepted(f));
    assert forall i :: 0 <= i < |kept| ==> Accepted(f)(kept[i]);
    if |s| > 0 {
      FilterMapKeepsAccepted(s[1..], f);
      var rest := Filter(s[1..], Accepted(f));
      assert forall i :: 0 <= i < |rest| ==> f(rest[i]).Some?;
      if f(s[0]).Some? {
        assert kept == [s[0]] + rest;
        ValuesCons(s[0], rest, f);
        assert FilterMap(s, f) == [f(s[0]).value] + FilterMap(s[1..], f);
      } else {
        assert kept == rest;
        assert FilterMap(s, f) == FilterMap(s[1..], f);
      }
    }
  }

  /** Sum of a sequence of exact reals. */
  function Sum(xs: seq<real>): real
  {
    if |xs| == 0 then 0.0 else xs[0] + Sum(xs[1..])
  }

  lemma {:induction false} SumConcat(a: seq<real>, b: seq<real>)
    ensures Sum(a + b) == Sum(a) + Sum(b)
  {
    if |a| == 0 {
      assert a + b == b;
    } else {
      assert (a + b)[1..] == a[1..] + b;
      SumConcat(a[1..], b);
    }
  }

  /** Taking the same element out of two permutations of each other leaves
      permutations of each other. */
  lemma MultisetRemoveFirst<T>(a: seq<T>, b: seq<T>, k: nat)
    requires multiset(a) == multiset(b)
    requires |a| > 0 && k < |b| && b[k] == a[0]
    ensures multiset(a[1..]) == multiset(b[..k] + b[k+1..])
  {
    var rest := b[..k] + b[k+1..];
    assert b == b[..k] + [b[k]] + b[k+1..];
    assert a == [a[0]] + a[1..];
    assert multiset(b) == multiset(b[..k]) + multiset{b[k]} + multiset(b[k+1..]);
    assert multiset(rest) == multiset(b[..k]) + multiset(b[k+1..]);
    assert multiset(a) == multiset{a[0]} + multiset(a[1..]);
    assert multiset(b) == multiset(rest) + multiset{a[0]};
    forall x
      ensures multiset(a[1..])[x] == multiset(rest)[x]
    {
      assert multiset(a)[x] == multiset(b)[x];
      assert multiset(a)[x] == multiset{a[0]}[x] + multiset(a[1..])[x];
      assert multiset(b)[x] == multiset(rest)[x] + multiset{a[0]}[x];
    }
  }

  /** The sum does not depend on the order of the summands. */
  lemma {:induction false} SumPermutation(a: seq<real>, b: seq<real>)
    requires multiset(a) == multiset(b)
    ensures Sum(a) == Sum(b)
    decreases |a|
  {
    if |a| > 0 {
      assert a[0] in multiset(b);
      var k :| 0 <= k < |b| && b[k] == a[0];
      assert b == b[..k] + [b[k]] + b[k+1..];
      var rest := b[..k] + b[k+1..];
      MultisetRemoveFirst(a, b, k);
      SumPermutation(a[1..], rest);
      SumConcat(b[..k] + [b[k]], b[k+1..]);
      SumConcat(b[..k], [b[k]]);
      SumConcat(b[..k], b[k+1..]);
    } else {
      assert |b| == |multiset(b)| == 0;
    }
  }

  /** Sums of values held between two bounds stay between the scaled bounds. */
  lemma {:induction false} SumBounds(xs: seq<real>, lo: real, hi: real)
    requires forall i :: 0 <= i < |xs| ==> lo <= xs[i] <= hi
    ensures lo * |xs| as real <= Sum(xs) <= hi * |xs| as real
  {
    if |xs| > 0 {
      SumBounds(xs[1..], lo, hi);
    }
  }

  /** Arithmetic mean; `None` for an empty sequence, as pandas yields NaN. */
  function Mean(xs: seq<real>): (r: Option<real>)
    ensures r.Some? <==> |xs| > 0
  {
    if |xs| == 0 then None else Some(Sum(xs) / |xs| as real)
  }

  /** The mean lies between any lower and upper bound of the values. */
  lemma MeanBounds(xs: seq<real>, lo: real, hi: real)
    requires |xs| > 0
    requires forall i :: 0 <= i < |xs| ==> lo <= xs[i] <= hi
    ensures lo <= Mean(xs).value <= hi
  {
    SumBounds(xs, lo, hi);
    var n := |xs| as real;
    assert Mean(xs).value * n == Sum(xs);
  }

  /** Largest value of a non-empty sequence. */
  function MaxOf(xs: seq<real>): (r: real)
    requires |xs| > 0
    ensures r in xs
    ensures forall i :: 0 <= i < |xs| ==> xs[i] <= r
  {
    if |xs| == 1 then xs[0]
    else
      var m := MaxOf(xs[1..]);
      assert forall x :: x in xs[1..] ==> x in xs;
      if xs[0] >= m then xs[0] else m
  }

  /** Smallest value of a non-empty sequence. */
  function MinOf(xs: seq<real>): (r: real)
    requires |xs| > 0
    ensures r in xs
    ensures forall i :: 0 <= i < |xs| ==> r <= xs[i]
  {
    if |xs| == 1 then xs[0]
    else
      var m := MinOf(xs[1..]);
      assert forall x :: x in xs[1..] ==> x in xs;
      if xs[0] <= m then xs[0] else m
  }
}
